=== FILE: README.md ===
# Momentum-rotation backtest: a Dafny model

This project models the backtest engine of a small stock service. The engine rebalances a
hypothetical account once a month over a table of daily closing prices (date, ticker, price).
Each pass of the engine does four things:

- **Signal refresh.** For each ticker, it takes the rows dated inside a look-back window
  `[start - n months, start]`, ends included. It computes the ticker's momentum
  `(last - first) / first`, its profit rate against the previous current price, and its new
  current price.
- **Weights.**
  - Risk-off: when TIP's momentum is negative, BIL's weight becomes 1.
  - Risk-on: otherwise the tickers are stable-sorted by momentum, highest first. BIL and TIP
    take part in this sort. The first two get weight 0.5.
  - Weights are never reset between passes.
- **Trades.** Each ticker's position is first set to `before_nav = after_nav * (1 + profit_rate)`.
  Here `profit_rate` is the price ratio `last / previous`, which is 1 for a flat price, so a flat
  price doubles the position (see "Design versus code"). The engine then buys the gap to
  `NAV * weight`, with amounts truncated toward zero to cents (`Decimal.quantize(0.01,
  ROUND_DOWN)`), and records an after-fee amount and a fee.
- **Scheduler.** The next rebalancing date is the latest table date on or before the same
  `trading_day` `m` months later.

The driver `RebalancingService.run_rebalancing` builds a fresh ticker dictionary from the table.
It runs at most three passes, and it stops early when the scheduler returns the date it was
given. It records the account's NAV after every pass. That NAV is never updated, so every
recorded value is the initial NAV.

Modules:

- `Wrappers`: `Option` and `Result`.
- `Money`: cent truncation.
- `Calendar`: dates, month arithmetic with day clamping, and `datetime` construction.
- `Calculator`: momentum.
- `Ranking`: the stable descending sort, and rank as its reference definition.
- `Rebalancing`: signals, weights, trades and the scheduler.
- `Service`: the driver class and its pass loop.

The ticker dictionary is a pair of values. `order` lists the keys in insertion order, and a map
holds the records. The in-place mutations of the source are methods that take this pair and
return the new one. Each such method is proved equal to a specification function (`Weights`,
`Trades`, `RiskOn`, `Signals`), and the properties are proved about those functions. The service
is a class with the source's fields. The model's errors are `Err` values:

- `KeyError`: a missing TIP or BIL, as the source raises it.
- `InvalidDate`: a day the month does not have, where the source's `datetime` raises ValueError.
- `DivisionByZero`: a zero first price in the window. The source does not stop there (see
  "Left out"); the model ends the run.
- `NoTradingDate`: no table date on or before the scheduler's target. The source gets NaT
  there instead of an exception (see "Left out"); the model ends the run.

The scheduler's month step `trading_month_period` defaults to 1 in the source; the model takes
it as an explicit parameter of `RunRebalancing`.

## Model

| member | source | states |
|---|---|---|
| Calculator.Momentum | utils/calculator.py:4-8 | Momentum is 0 exactly when the last price equals the first. With a positive first price it is positive exactly when the price rose and negative exactly when it fell. With a non-negative last price it is at least -1. |
| Calculator.MomentumEndpointsOnly | utils/calculator.py:6-8 | Two price series with the same first and last price have the same momentum; the prices in between are never read. |
| Calculator.MomentumIsRatioMinusOne | stocks/services/rebalancing.py:168-180 | `calculate_momentum` is `calculate_profit_rate`'s last/first ratio minus 1. |
| Calendar.DaysInMonth | stocks/services/rebalancing.py:103 | Month lengths are 28 to 31 days; a month has 29 days exactly for February of a Gregorian leap year. |
| Calendar.AddMonths | stocks/services/rebalancing.py:102 | Adding `n` months (either sign) moves the month index by exactly `n`. The day is clamped to the new month's length, and a date with a positive day stays valid. |
| Calendar.MakeDate | stocks/services/rebalancing.py:128 | `datetime(y, m, d)` accepts any month 1..12 with a day up to 28; on success the month is 1..12 and the day 1..31; 29 February is accepted exactly in leap years; 30 February never is. A failure stands for the ValueError. |
| Calendar.AddMonthsZero | stocks/services/rebalancing.py:29 | A zero-month offset leaves a valid date unchanged. |
| Calendar.MonthIndexOrder | stocks/services/rebalancing.py:102-103 | A later month index means a strictly later date, whatever the days. |
| Calendar.SubMonthsNotLater | stocks/services/rebalancing.py:29-30 | The window's cutoff `start - n months` (n >= 0) is never after `start`, so the inclusive window is a real interval. |
| Calendar.AddMonthsInverse | stocks/services/rebalancing.py:102 | For days up to the 28th, moving forward and back by the same number of months returns the original date. |
| Money.Trunc2 | stocks/services/rebalancing.py:60-69 | `quantize(0.01, ROUND_DOWN)` yields whole cents, lies between 0 and its input, and is less than one cent away from it. |
| Money.ScaleShrinks | stocks/services/rebalancing.py:73 | Multiplying by `1 - fee` with the fee in [0, 1] moves an amount toward zero. |
| Money.Trunc2OfCents | stocks/services/rebalancing.py:68-69 | An amount already in whole cents is left unchanged. |
| Money.Trunc2Idempotent | stocks/services/rebalancing.py:68-69 | Truncating twice is the same as truncating once. |
| Money.Trunc2BelowOneCent | stocks/services/rebalancing.py:74 | Every amount under one cent in magnitude truncates to 0. |
| Money.Trunc2Odd | stocks/services/rebalancing.py:69 | ROUND_DOWN commutes with negation, so a sale (negative purchase) truncates like the purchase of the same size. |
| Money.Trunc2Monotone | stocks/services/rebalancing.py:68 | Truncation preserves order. |
| Money.Trunc2IsLargestCentsBelow | stocks/services/rebalancing.py:60-68 | For a non-negative amount, the result is the largest whole-cents value not above it (a reference characterisation). |
| Ranking.Insert | stocks/services/rebalancing.py:46 | Inserting a new position into an ordered list gives an ordered list with exactly that position added. |
| Ranking.SortFrom | stocks/services/rebalancing.py:46 | The positions `lo..` are listed once each, ordered by descending momentum with ties in position order. |
| Ranking.StableOrder | stocks/services/rebalancing.py:46 | `sorted(..., key=momentum, reverse=True)` is a permutation of all positions in which every entry precedes every later one (stable on ties). |
| Ranking.PositionIsRank | stocks/services/rebalancing.py:46-47 | The entry at sorted position `k` has exactly `k` entries preceding it. |
| Ranking.InPrefixIffRankBelow | stocks/services/rebalancing.py:47 | An entry is in `sorted(...)[:m]` exactly when fewer than `m` entries precede it. |
| Ranking.RankOrder | stocks/services/rebalancing.py:46 | Entry `i` ranks before entry `j` exactly when it has higher momentum, or equal momentum and an earlier dictionary position. |
| Ranking.CountRankBelow | stocks/services/rebalancing.py:47-48 | Exactly `min(m, count)` entries rank below `m`. |
| Rebalancing.WindowRows | stocks/services/rebalancing.py:29-30 | The window keeps exactly the table rows dated from the cutoff to the start, ends included. |
| Rebalancing.LookBack | stocks/services/rebalancing.py:29-30 | The look-back rows are exactly the table rows dated from `start - n months` to `start`, both ends included. |
| Rebalancing.GroupPricesFromRows | stocks/services/rebalancing.py:33 | Every price in a ticker's group is the price of one of that ticker's rows. |
| Rebalancing.GroupOfWindowInTableOrder | stocks/services/rebalancing.py:30-33 | Filtering the window and then grouping lists the ticker's in-window rows in table order, each once. |
| Rebalancing.WindowGroupFirst | stocks/services/rebalancing.py:33-34 | The first price of a ticker's window group (`iloc[0]`) is the price at the lowest table index that is of that ticker and in the window. |
| Rebalancing.WindowGroupLast | stocks/services/rebalancing.py:35-36 | The last price of a ticker's window group (`iloc[-1]`) is the price at the highest table index that is of that ticker and in the window. |
| Rebalancing.GroupPricesEmpty | stocks/services/rebalancing.py:33 | A ticker has a group exactly when some window row is of that ticker. |
| Rebalancing.GroupPricesFirst | stocks/services/rebalancing.py:170 | `iloc[0]` is the price of the ticker's first window row. |
| Rebalancing.GroupPricesLast | stocks/services/rebalancing.py:35-36 | `iloc[-1]` is the price of the ticker's last window row. |
| Rebalancing.WindowRowsIdempotent | stocks/services/rebalancing.py:30 | Filtering the window a second time changes nothing. |
| Rebalancing.Refresh | stocks/services/rebalancing.py:34-36 | One ticker's refresh changes only momentum, profit rate and current price, and changes nothing without rows. With rows, the current price becomes the last price and the momentum is that price over the first, minus 1. The profit rate times the previous current price is the new current price when the previous one is not 0; otherwise the rate is 0. |
| Rebalancing.Signals | stocks/services/rebalancing.py:33-36 | The signal loop keeps the ticker set and changes only the three signal fields. A ticker without window rows is left exactly as it was. |
| Rebalancing.ProfitRate | stocks/services/rebalancing.py:175-180 | `calculate_profit_rate` is the momentum plus 1. |
| Rebalancing.RankedIsSorted | stocks/services/rebalancing.py:46 | The sorted dictionary lists every position exactly once, by descending momentum, with ties in dictionary order. |
| Rebalancing.RiskOn | stocks/services/rebalancing.py:46-48 | The risk-on step keeps the ticker set. Every entry is either unchanged or differs only in having weight 0.5. |
| Rebalancing.Weights | stocks/services/rebalancing.py:26-48 | The weight step keeps the ticker set. It fails with division by zero exactly when some ticker's first window price is 0. Otherwise it fails with KeyError("TIP") exactly when TIP is absent, and with KeyError("BIL") exactly when TIP is present with a negative refreshed momentum and BIL is absent. |
| Rebalancing.UpdateSignals | stocks/services/rebalancing.py:33-36 | The signal loop fails exactly when some ticker's first window price is 0; otherwise it yields the refreshed dictionary `Signals`. |
| Rebalancing.BuyTop | stocks/services/rebalancing.py:46-48 | The risk-on loop over `sorted(...)[:top_n]` yields `RiskOn`: weight 0.5 on the picked entries, all else as before. |
| Rebalancing.CalculateRebalancingWeights | stocks/services/rebalancing.py:26-48 | The weight step's result, or its error, is exactly `Weights`. |
| Rebalancing.PurchaseAmount | stocks/services/rebalancing.py:68-69 | The purchase comes from two truncations toward zero: `NAV * weight` cut to cents, less `before_nav`, cut to cents again. So it is whole cents and within two cents of the exact gap `NAV * weight - before_nav`. |
| Rebalancing.PurchaseTruncatesTwice | stocks/services/rebalancing.py:68-69 | The order of the truncations shows: for a target of 100.005 and `before_nav` 50.003 the purchase is 49.99, where one truncation of the exact gap would give 50.00. |
| Rebalancing.AfterFee | stocks/services/rebalancing.py:73 | `after_nav` is whole cents, cut toward zero from `purchase * (1 - fee_rate)` and less than a cent away from it; for a fee rate in [0, 1] it lies between 0 and the purchase. |
| Rebalancing.RecordedFee | stocks/services/rebalancing.py:74 | For every rate the fee is `purchase * c`, where `c` is the rate cut toward zero to whole cents (less than a cent away); it is exactly `purchase * rate` when the rate is whole cents, lies between 0 and `purchase * rate` for a non-negative rate, and is 0 for any rate below 1% (such as 0.001). |
| Rebalancing.Trade | stocks/services/rebalancing.py:63-74 | `before_nav` is the previous `after_nav` times `1 + profit_rate`; `target_nav` is `PurchaseAmount` of `NAV * weight` and that `before_nav`, so whole cents and within two cents of the gap; `after_nav` is `AfterFee` and `fee` is `RecordedFee` of that target, with the meanings stated in their rows; `after_nav` lies between 0 and the target; and only the four trade fields change. |
| Rebalancing.Trades | stocks/services/rebalancing.py:62-74 | The traded dictionary keeps the ticker set, and each entry is that ticker's `Trade` against the same NAV, so it changes only its four trade fields, with `target_nav` and `after_nav` in whole cents and each target within two cents of `NAV * weight - before_nav`. |
| Rebalancing.ExecuteTrades | stocks/services/rebalancing.py:52-77 | Every ticker, and no other key, is traded against the same NAV `current_nav`. The result is `Trades`, so the visiting order does not matter, and the account is returned as it was. |
| Rebalancing.LatestOnOrBefore | stocks/services/rebalancing.py:105-106 | `max()` of the dates on or before the target: none exactly when no such date exists; otherwise a table date on or before the target and not earlier than any other such date. |
| Rebalancing.TradingTarget | stocks/services/rebalancing.py:102-103 | The target lies exactly `n` months after the current date's month, on day `trading_day`, and is a real date exactly when that month has that day. |
| Rebalancing.NextTradingDate | stocks/services/rebalancing.py:96-106 | The scheduler fails with InvalidDate exactly when the target month has no `trading_day`, and with NoTradingDate exactly when no table date is on or before a valid target. It fails with no other error, so in every other case it returns a table date on or before the target. |
| Rebalancing.WeightsReadOnlyWindow | stocks/services/rebalancing.py:29-30 | The weights computed on the look-back rows alone equal those computed on the whole table. |
| Rebalancing.WeightsRefreshSignals | stocks/services/rebalancing.py:33-36 | A ticker without window rows keeps momentum, profit rate and current price. A ticker with rows gets momentum from its first and last price, a profit rate of last / previous current price (0 when that was 0), and the last price. The trade fields never change. |
| Rebalancing.WeightsChangeOnlyWeight | stocks/services/rebalancing.py:33-48 | After the weight step, every entry equals its signal refresh except for the weight. |
| Rebalancing.WeightsRiskOff | stocks/services/rebalancing.py:39-43 | With TIP's refreshed momentum negative, BIL's weight is exactly 1 and no other weight changes. |
| Rebalancing.PickedKeepsMomentum | stocks/services/rebalancing.py:46-48 | Raising weights keeps the ticker set and every momentum. |
| Rebalancing.PickedIff | stocks/services/rebalancing.py:47-48 | A ticker is among those given weight 0.5 exactly when its position is among the first `m` sorted positions. |
| Rebalancing.WeightsRiskOn | stocks/services/rebalancing.py:45-48 | With TIP's momentum not negative, an entry's weight becomes 0.5 exactly when fewer than `top_n` entries precede it in the stable descending order (BIL and TIP included); otherwise it keeps its previous weight. Exactly `min(top_n, count)` entries are picked. |
| Rebalancing.RiskOnPicks | stocks/services/rebalancing.py:46-48 | The same two facts for the risk-on step applied to any refreshed dictionary. |
| Rebalancing.WeightsStayInGrid | stocks/services/rebalancing.py:42-48 | Weights in {0, 0.5, 1} before the step stay in that set after it. |
| Rebalancing.NoTableDateBetween | stocks/services/rebalancing.py:105-106 | No table date lies strictly between the scheduler's date and its target. |
| Rebalancing.SchedulerNeverMovesBack | stocks/services/rebalancing.py:102-106 | With a step of at least one month, the scheduler never returns a date before a current date that is in the table. |
| Rebalancing.SchedulerStalls | stocks/services/rebalancing.py:102-106 | When no table date after the current one is on or before the target, the scheduler returns the current date, which ends the loop. |
| Service.UniqueTickers | stocks/services/rebalancing.py:134-137 | `unique()` lists every ticker of the table exactly once, in order of first appearance. |
| Service.FreshDict | stocks/services/rebalancing.py:134-137 | The fresh dictionary has exactly those tickers, each with all eight fields 0; for distinct tickers it is a well-formed ticker dictionary, and its weights lie on the weight grid and its amounts are whole cents, the invariants the loop keeps from then on. |
| Service.Pass | stocks/services/rebalancing.py:140-147 | A loop pass (weights, then trades) keeps the ticker set. |
| Service.RunPasses | stocks/services/rebalancing.py:139-147 | Any sequence of passes keeps the ticker set. |
| Service.RunPassesInvariants | stocks/services/rebalancing.py:139-147 | From the fresh dictionary, weights stay in {0, 0.5, 1} after any number of passes. After at least one pass, every `target_nav` and `after_nav` is whole cents. |
| Service.PassIsTrace | stocks/services/rebalancing.py:140-147 | A pass from a well-formed dictionary is a one-pass trace. |
| Service.TraceIsPass | stocks/services/rebalancing.py:140-147 | A one-pass trace holds exactly that pass's outcome. |
| Service.TraceIsRunPasses | stocks/services/rebalancing.py:139-147 | The dictionaries the loop records are the fold `RunPasses` of the passes over its dates. |
| Service.RebalanceOnce | stocks/services/rebalancing.py:140-147 | The loop body's weight and trade calls produce exactly the outcome of `Pass`. |
| Service.RunPassLoop | stocks/services/rebalancing.py:138-160 | The loop makes at most three passes, and each date is the scheduler's answer for the one before. On success there is one NAV per date, each equal to the NAV, and the loop stopped at the cap or on a date that did not move. The final dictionary is the last pass's outcome. On failure there were at most three passes, the scheduler had moved to the last pass's date, and the error came from that pass or from the scheduler after it (`LoopOutcome`). |
| Service.RebalancingService.constructor | stocks/services/rebalancing.py:110-112 | A new service has an empty dictionary and zero NAVs. |
| Service.RebalancingService.RunRebalancing | stocks/services/rebalancing.py:114-160 | A start day the month lacks fails with InvalidDate and changes nothing. Otherwise both NAVs become the initial NAV, the dictionary order is `unique()` of the table, and the run from the fresh dictionary meets `LoopOutcome` with the NAV history returned. The service keeps the dictionary the loop ended with. |

`Service.RunPassLoop` ensures `LoopOutcome`:

- There are at most three passes, and each date after the first is the scheduler's answer for
  the one before.
- The scheduler advanced from every date but the last two.
- On success:
  - The NAV history has one entry per date, at least two, each equal to the NAV.
  - The loop stopped after three passes, or when the scheduler returned the date it was given.
  - The final dictionary is the outcome of the recorded passes.
- On failure:
  - There were at most three passes, and the scheduler had moved to the date of the last one
    (the loop had not stopped before it).
  - Either the last pass raised the error, or it succeeded and the scheduler raised it.

`Service.RebalancingService.RunRebalancing`:

- A start day the month does not have fails with InvalidDate and changes nothing.
- Otherwise:
  - Both account NAVs become the initial NAV.
  - The dictionary order is `UniqueTickers(table)`.
  - The loop's outcome, with the first pass starting from the fresh dictionary, is what
    `LoopOutcome` states.
  - The service keeps the dictionary the loop ended with.

## Design versus code

The intended design of this engine differs from its code in several places. The model follows
the code throughout:

- Weights are not reset to 0 before each weight step. Entries that are not touched keep the
  weight of earlier passes.
- Risk-off sets BIL's weight to 1 and leaves every other weight as it was.
- BIL and TIP are ranked with the other tickers in the risk-on sort.
- A ticker without rows in the window is not excluded from the sort. It ranks with the momentum
  it already had, which starts at 0.
- The purchase is `trunc2(trunc2(NAV * weight) - before_nav)`, and `target_nav` is that purchase,
  not purchase plus `before_nav`.
  - `after_nav` is `trunc2(purchase * (1 - fee))`.
  - The fee is `purchase * trunc2(fee rate)`.
  - Rounding is truncation toward zero, not round-half-even.
- No running total NAV is accumulated, no fee is deducted, and `account_status.current_nav`
  never changes. Every NAV recorded is the initial NAV.
- The position update is `before_nav = after_nav * (1 + profit_rate)`, and `profit_rate` is the
  price ratio `last / previous` (`stocks/services/rebalancing.py:35`), not a return `last / previous - 1`. A flat
  price therefore gives `profit_rate = 1` and doubles the position; a growth factor would have
  been `after_nav * profit_rate`.
- The loop stops after a fixed three passes (`cnt > 2`), or earlier when the scheduler does not
  move. The scheduler is called even on the last pass.

## Left out

- `fetch_stock_data` and the database, ORM, API and job layers are not part of this model. The
  price table is a parameter of `RunRebalancing`, standing for the rows fetched from 200 days
  before the start date.
- `calculate_statistics` is left out because it uses floating-point statistics. The return
  block at stocks/services/rebalancing.py:162-165 is also left out: it names an undefined
  `account_status` and would raise. The model ends with the NAV history.
- All `print` calls are left out. This includes the debug print at
  stocks/services/rebalancing.py:143, which also raises KeyError when SPY, QQQ, GLD or BIL is
  missing from the dictionary. The model does not stop on that lookup.
- `round(..., 9)` on the profit rate is not modelled; the rate is the exact ratio. The
  `Decimal(float)` conversions and the 28-digit `Decimal` context are not modelled either;
  amounts are exact reals.
- A zero first price in the window: the prices reach the engine as floats, since `pd.read_sql`
  converts the numeric column. So the source's division gives an infinite or NaN momentum,
  raises nothing, and the run goes on; a NaN TIP momentum is not `< 0`, so the risk-on branch
  follows. The model does not model infinities or NaN: it stops the run with `DivisionByZero`.
- `groupby` visits tickers in sorted-name order; `UpdateSignals` visits them in dictionary order.
  Each update reads and writes only its own ticker's entry, so the result is the same.
- When no table date is on or before the target, `get_next_trading_date` returns NaT and the
  source loop goes on with it. The model stops with `NoTradingDate` instead of modelling the
  passes that would follow on NaT.
- The year range of `datetime` (1 to 9999) is not modelled; years are unbounded.
- `AccountStatus()` has no attributes until the run sets them. The constructor models them as 0.
- Service.RebalancingService.RunRebalancing: after an error inside a pass, the source
  dictionary keeps the partial in-place updates made before the exception. The model keeps the
  dictionary from before the failed pass.
- The module-level service instance is left out; a service is constructed per run.

=== FILE: calculator.dfy ===
/**
 * The momentum signal: the fractional change from the first to the last price of
 * a ticker's rows, in row order. `rebalancing.py` carries a line-for-line copy of
 * the same function; both are this one definition.
 */
module Calculator {

  function Last(prices: seq<real>): real
    requires |prices| > 0
  {
    prices[|prices| - 1]
  }

  /** `(latest_price - initial_price) / initial_price`, with `initial_price` the first row. */
  function Momentum(prices: seq<real>): (r: real)
    requires |prices| > 0 && prices[0] != 0.0
    ensures r == 0.0 <==> Last(prices) == prices[0]
    ensures prices[0] > 0.0 ==> (r > 0.0 <==> Last(prices) > prices[0])
    ensures prices[0] > 0.0 ==> (r < 0.0 <==> Last(prices) < prices[0])
    ensures prices[0] > 0.0 && Last(prices) >= 0.0 ==> r >= -1.0
  {
    var first, latest := prices[0], Last(prices);
    var r := (latest - first) / first;
    assert r * first == latest - first;
    assert first > 0.0 && latest >= 0.0 ==> r >= -1.0 by {
      if first > 0.0 && latest >= 0.0 {
        assert (r + 1.0) * first == latest;
        NonNegFactor(r + 1.0, first);
      }
    }
    r
  }

  /** A product that is not negative, with a positive factor, has a non-negative other factor. */
  lemma NonNegFactor(x: real, y: real)
    requires y > 0.0 && x * y >= 0.0
    ensures x >= 0.0
  {
  }

  /** Only the first and the last price matter: the prices in between are never read. */
  lemma MomentumEndpointsOnly(p: seq<real>, q: seq<real>)
    requires |p| > 0 && p[0] != 0.0
    requires |q| > 0 && q[0] == p[0] && Last(q) == Last(p)
    ensures Momentum(p) == Momentum(q)
  {
  }

  /** Momentum is the price ratio minus one. */
  lemma MomentumIsRatioMinusOne(prices: seq<real>)
    requires |prices| > 0 && prices[0] != 0.0
    ensures Momentum(prices) == Last(prices) / prices[0] - 1.0
  {
    var first, latest := prices[0], Last(prices);
    var m, q := Momentum(prices), latest / first;
    assert m * first == latest - first;
    assert q * first == latest;
    var d := m - (q - 1.0);
    assert d * first == 0.0;
    assert d == (d * first) / first;
  }
}

=== FILE: calendar.dfy ===
/**
 * Calendar dates as the backtest uses them: `datetime(year, month, day)`,
 * `relativedelta(months=n)` and `pd.DateOffset(months=n)`. Adding months moves
 * the month and clamps the day to the length of the target month.
 */
module Calendar {
  import opened Wrappers

  datatype Date = Date(year: int, month: int, day: int)

  /** Proleptic Gregorian leap years. */
  predicate IsLeapYear(y: int)
  {
    y % 4 == 0 && (y % 100 != 0 || y % 400 == 0)
  }

  function DaysInMonth(y: int, m: int): (n: int)
    requires 1 <= m <= 12
    ensures 28 <= n <= 31
    ensures n == 29 <==> m == 2 && IsLeapYear(y)
  {
    if m == 2 then (if IsLeapYear(y) then 29 else 28)
    else if m == 4 || m == 6 || m == 9 || m == 11 then 30
    else 31
  }

  predicate ValidDate(d: Date)
  {
    1 <= d.month <= 12 && 1 <= d.day <= DaysInMonth(d.year, d.month)
  }

  /** Chronological order on dates (lexicographic on year, month, day). */
  predicate LessEq(a: Date, b: Date)
  {
    a.year < b.year
    || (a.year == b.year && a.month < b.month)
    || (a.year == b.year && a.month == b.month && a.day <= b.day)
  }

  /** Months since year 0, January: the quantity a month offset shifts. */
  function MonthIndex(d: Date): int
  {
    d.year * 12 + (d.month - 1)
  }

  function Min(a: int, b: int): int
  {
    if a <= b then a else b
  }

  /**
   * `d + relativedelta(months=n)`, also `d - pd.DateOffset(months=-n)`: the month
   * moves by `n` (either sign) and a day past the end of the new month is
   * clamped to its last day.
   */
  function AddMonths(d: Date, n: int): (r: Date)
    ensures 1 <= r.month <= 12
    ensures MonthIndex(r) == MonthIndex(d) + n
    ensures r.day == Min(d.day, DaysInMonth(r.year, r.month))
    ensures 1 <= d.day ==> ValidDate(r)
  {
    var total := MonthIndex(d) + n;
    var y := total / 12;
    var m := total % 12 + 1;
    Date(y, m, Min(d.day, DaysInMonth(y, m)))
  }

  /** `datetime(year, month, day)`, which raises ValueError for a day the month does not have. */
  function MakeDate(year: int, month: int, day: int): (r: Option<Date>)
    ensures r.Some? <==> ValidDate(Date(year, month, day))
    ensures r.Some? ==> r.value == Date(year, month, day)
    ensures 1 <= month <= 12 && 1 <= day <= 28 ==> r.Some?
    ensures r.Some? ==> 1 <= month <= 12 && 1 <= day <= 31
    ensures month == 2 && day == 29 ==> (r.Some? <==> IsLeapYear(year))
    ensures month == 2 && day == 30 ==> r.None?
  {
    if 1 <= month <= 12 && 1 <= day <= DaysInMonth(year, month) then Some(Date(year, month, day))
    else None
  }

  /** Two dates in range with the same month index have the same year and month. */
  lemma MonthIndexInjective(a: Date, b: Date)
    requires 1 <= a.month <= 12 && 1 <= b.month <= 12
    requires MonthIndex(a) == MonthIndex(b)
    ensures a.year == b.year && a.month == b.month
  {
  }

  /** A shift by zero months leaves a valid date unchanged. */
  lemma AddMonthsZero(d: Date)
    requires ValidDate(d)
    ensures AddMonths(d, 0) == d
  {
    MonthIndexInjective(AddMonths(d, 0), d);
  }

  /** A later month index means a later date, whatever the days are. */
  lemma MonthIndexOrder(a: Date, b: Date)
    requires 1 <= a.month <= 12 && 1 <= b.month <= 12
    requires MonthIndex(a) < MonthIndex(b)
    ensures LessEq(a, b) && a != b
  {
  }

  /** Moving back by a non-negative number of months never moves later: the look-back window is not empty. */
  lemma SubMonthsNotLater(d: Date, n: int)
    requires ValidDate(d) && 0 <= n
    ensures LessEq(AddMonths(d, -n), d)
  {
    var c := AddMonths(d, -n);
    if n == 0 {
      AddMonthsZero(d);
    } else {
      MonthIndexOrder(c, d);
    }
  }

  /**
   * Up to the 28th, where no clamping can happen, shifting forward and back by
   * the same number of months returns the original date.
   */
  lemma AddMonthsInverse(d: Date, n: int)
    requires ValidDate(d) && d.day <= 28
    ensures AddMonths(AddMonths(d, n), -n) == d
  {
    var e := AddMonths(AddMonths(d, n), -n);
    MonthIndexInjective(e, d);
  }
}

=== FILE: money.dfy ===
/**
 * Monetary rounding of the trade executor: `Decimal.quantize(Decimal("0.01"),
 * rounding=ROUND_DOWN)`, which keeps two decimals and drops the rest toward zero.
 */
module Money {

  /** True when `x` is a whole number of cents. */
  predicate IsCents(x: real)
  {
    (x * 100.0).Floor as real == x * 100.0
  }

  /** `a` lies between 0 and `b`, on the same side of 0 as `b` and no farther from it. */
  predicate TowardZero(a: real, b: real)
  {
    (0.0 <= b ==> 0.0 <= a <= b) && (b <= 0.0 ==> b <= a <= 0.0)
  }

  /** Scaling an amount by a factor in [0, 1], such as `1 - fee`, moves it toward zero. */
  lemma ScaleShrinks(x: real, c: real)
    requires 0.0 <= c <= 1.0
    ensures TowardZero(x * c, x)
  {
    if x >= 0.0 {
      assert x * c <= x * 1.0;
    } else {
      assert x * c >= x * 1.0;
    }
  }

  /**
   * Truncation to two decimals toward zero (ROUND_DOWN): whole cents, toward zero,
   * and less than one cent away.
   */
  function Trunc2(x: real): (r: real)
    ensures IsCents(r)
    ensures TowardZero(r, x)
    ensures -0.01 < x - r < 0.01
  {
    var y := if x < 0.0 then -x else x;
    var k := (y * 100.0).Floor;
    var c := k as real / 100.0;
    FloorCents(y);
    assert IsCents(-c) by {
      assert c * 100.0 == k as real;
      assert (-c) * 100.0 == (-k) as real;
    }
    if x >= 0.0 then c else -c
  }

  /** The cents part of a non-negative amount is whole cents, not above it and less than a cent below. */
  lemma FloorCents(y: real)
    requires 0.0 <= y
    ensures var r := (y * 100.0).Floor as real / 100.0; IsCents(r) && 0.0 <= r <= y && y - r < 0.01
  {
    var k := (y * 100.0).Floor;
    var r := k as real / 100.0;
    assert r * 100.0 == k as real;
    assert (r * 100.0).Floor == k;
    assert k as real <= y * 100.0 < k as real + 1.0;
  }

  /** An amount that is already whole cents is left as it is. */
  lemma Trunc2OfCents(x: real)
    requires IsCents(x)
    ensures Trunc2(x) == x
  {
    if x < 0.0 {
      assert (-x * 100.0).Floor == -((x * 100.0).Floor);
    }
  }

  /** Quantizing twice is quantizing once. */
  lemma Trunc2Idempotent(x: real)
    ensures Trunc2(Trunc2(x)) == Trunc2(x)
  {
    Trunc2OfCents(Trunc2(x));
  }

  /** Any amount smaller than one cent in magnitude becomes zero. */
  lemma Trunc2BelowOneCent(x: real)
    requires -0.01 < x < 0.01
    ensures Trunc2(x) == 0.0
  {
    if x >= 0.0 {
      assert (x * 100.0).Floor == 0;
    } else {
      assert (-x * 100.0).Floor == 0;
    }
  }

  /** ROUND_DOWN rounds toward zero, so it commutes with negation (unlike a floor). */
  lemma Trunc2Odd(x: real)
    ensures Trunc2(-x) == -Trunc2(x)
  {
  }

  /** Truncation never reverses the order of two amounts. */
  lemma Trunc2Monotone(x: real, y: real)
    requires x <= y
    ensures Trunc2(x) <= Trunc2(y)
  {
    if 0.0 <= x {
      assert (x * 100.0).Floor <= (y * 100.0).Floor;
    } else if y < 0.0 {
      assert (-y * 100.0).Floor <= (-x * 100.0).Floor;
    }
  }

  /**
   * Reference characterisation: for a non-negative amount, the truncated value is
   * the largest whole number of cents that does not exceed it.
   */
  lemma Trunc2IsLargestCentsBelow(x: real, c: real)
    requires 0.0 <= x && IsCents(c) && c <= x
    ensures c <= Trunc2(x)
  {
    var k := (c * 100.0).Floor;
    assert k as real == c * 100.0;
    assert k as real <= x * 100.0;
    assert k <= (x * 100.0).Floor;
  }
}

=== FILE: ranking.dfy ===
/**
 * `sorted(ticker_info.items(), key=lambda x: x[1].momentum, reverse=True)`.
 * Python's sort is stable also with `reverse=True`: entries are ordered by
 * momentum, highest first, and entries of equal momentum keep the order they had
 * in the dictionary. The sort is modelled on dictionary positions: `ms[i]` is the
 * momentum of the i-th entry, and the result lists positions.
 */
module Ranking {

  /** Position `i` comes before position `j` in the stable descending order. */
  predicate Precedes(ms: seq<real>, i: int, j: int)
    requires 0 <= i < |ms| && 0 <= j < |ms|
  {
    ms[i] > ms[j] || (ms[i] == ms[j] && i < j)
  }

  predicate InRange(ms: seq<real>, s: seq<int>)
  {
    forall k :: 0 <= k < |s| ==> 0 <= s[k] < |ms|
  }

  predicate Ordered(ms: seq<real>, s: seq<int>)
    requires InRange(ms, s)
  {
    forall p, q :: 0 <= p < q < |s| ==> Precedes(ms, s[p], s[q])
  }

  predicate Distinct(s: seq<int>)
  {
    forall p, q :: 0 <= p < q < |s| ==> s[p] != s[q]
  }

  /** Inserts position `i` in front of the first entry it precedes. */
  function Insert(ms: seq<real>, i: int, s: seq<int>): (r: seq<int>)
    requires 0 <= i < |ms| && InRange(ms, s)
    ensures |r| == |s| + 1 && InRange(ms, r)
    ensures forall x :: x in r <==> x == i || x in s
    ensures Ordered(ms, s) && i !in s ==> Ordered(ms, r)
  {
    if s == [] then [i]
    else if Precedes(ms, s[0], i) then
      var rest := Insert(ms, i, s[1..]);
      assert forall x :: x in s[1..] ==> x in s;
      assert Ordered(ms, s) ==> forall k :: 1 <= k < |s| ==> Precedes(ms, s[0], s[k]);
      assert Ordered(ms, s) ==> forall x :: x in s[1..] ==> Precedes(ms, s[0], x);
      [s[0]] + rest
    else
      [i] + s
  }

  /** Positions `lo .. |ms| - 1` in the stable descending order. */
  function SortFrom(ms: seq<real>, lo: int): (r: seq<int>)
    requires 0 <= lo <= |ms|
    ensures |r| == |ms| - lo && InRange(ms, r)
    ensures forall x :: x in r <==> lo <= x < |ms|
    ensures Ordered(ms, r)
    decreases |ms| - lo
  {
    if lo == |ms| then [] else Insert(ms, lo, SortFrom(ms, lo + 1))
  }

  /**
   * The sorted dictionary, as positions: a permutation of all positions in which
   * every entry precedes every later one.
   */
  function StableOrder(ms: seq<real>): (r: seq<int>)
    ensures |r| == |ms| && InRange(ms, r) && Distinct(r)
    ensures forall x :: x in r <==> 0 <= x < |ms|
    ensures Ordered(ms, r)
  {
    SortFrom(ms, 0)
  }

  /** Reference definition: the number of entries that come before entry `i`. */
  ghost function Rank(ms: seq<real>, i: int): nat
    requires 0 <= i < |ms|
  {
    |set j | 0 <= j < |ms| && Precedes(ms, j, i)|
  }

  /** The set of the first `k` entries of a sequence. */
  ghost function PrefixSet(s: seq<int>, k: int): set<int>
    requires 0 <= k <= |s|
  {
    set p | 0 <= p < k :: s[p]
  }

  lemma PrefixSetSize(s: seq<int>, k: int)
    requires Distinct(s) && 0 <= k <= |s|
    ensures |PrefixSet(s, k)| == k
    decreases k
  {
    if k > 0 {
      PrefixSetSize(s, k - 1);
      assert s[k - 1] !in PrefixSet(s, k - 1);
      assert PrefixSet(s, k) == PrefixSet(s, k - 1) + {s[k - 1]};
    }
  }

  /** The entries before position `k` of the sorted order are exactly those that precede its entry. */
  lemma PrefixIsPredecessors(ms: seq<real>, k: int)
    requires 0 <= k < |ms|
    ensures PrefixSet(StableOrder(ms), k) == set j | 0 <= j < |ms| && Precedes(ms, j, StableOrder(ms)[k])
  {
    var s := StableOrder(ms);
    var i := s[k];
    forall j | 0 <= j < |ms| && Precedes(ms, j, i)
      ensures j in PrefixSet(s, k)
    {
      assert j in s;
      var p :| 0 <= p < |s| && s[p] == j;
      assert k < p ==> Precedes(ms, i, j);
      assert p < k;
    }
  }

  /** Sorting puts every entry at the position given by its rank. */
  lemma PositionIsRank(ms: seq<real>, k: int)
    requires 0 <= k < |ms|
    ensures Rank(ms, StableOrder(ms)[k]) == k
  {
    PrefixIsPredecessors(ms, k);
    PrefixSetSize(StableOrder(ms), k);
  }

  /** An entry is among the first `m` sorted entries exactly when its rank is below `m`. */
  lemma InPrefixIffRankBelow(ms: seq<real>, i: int, m: int)
    requires 0 <= i < |ms| && 0 <= m <= |ms|
    ensures i in StableOrder(ms)[..m] <==> Rank(ms, i) < m
  {
    var s := StableOrder(ms);
    assert i in s;
    var p :| 0 <= p < |s| && s[p] == i;
    PositionIsRank(ms, p);
    if i in s[..m] {
      var p' :| 0 <= p' < m && s[..m][p'] == i;
      assert p' == p;
    } else {
      assert p >= m;
    }
  }

  /** Ranks follow the stable descending order: higher momentum first, ties in dictionary order. */
  lemma RankOrder(ms: seq<real>, i: int, j: int)
    requires 0 <= i < |ms| && 0 <= j < |ms| && i != j
    ensures Rank(ms, i) < Rank(ms, j) <==> Precedes(ms, i, j)
  {
    var s := StableOrder(ms);
    assert i in s && j in s;
    var p :| 0 <= p < |s| && s[p] == i;
    var q :| 0 <= q < |s| && s[q] == j;
    PositionIsRank(ms, p);
    PositionIsRank(ms, q);
    if p < q {
      assert Precedes(ms, i, j);
    } else {
      assert Precedes(ms, j, i);
    }
  }

  /** Exactly `min(m, |ms|)` entries have rank below `m`. */
  lemma CountRankBelow(ms: seq<real>, m: nat)
    ensures |set i | 0 <= i < |ms| && Rank(ms, i) < m| == if m < |ms| then m else |ms|
  {
    var s := StableOrder(ms);
    var c := if m < |ms| then m else |ms|;
    forall i | 0 <= i < |ms|
      ensures Rank(ms, i) < m <==> i in PrefixSet(s, c)
    {
      InPrefixIffRankBelow(ms, i, c);
      assert i in s[..c] <==> i in PrefixSet(s, c);
      assert Rank(ms, i) < |ms| by { InPrefixIffRankBelow(ms, i, |ms|); assert s[..|ms|] == s; }
    }
    assert (set i | 0 <= i < |ms| && Rank(ms, i) < m) == PrefixSet(s, c);
    PrefixSetSize(s, c);
  }
}

=== FILE: rebalancing.dfy ===
/**
 * The monthly momentum-rotation step of the backtest: refresh each ticker's
 * signal from a look-back window of the price table, choose the weights (all
 * cash-equivalent BIL when TIP's momentum is negative, otherwise 0.5 on the two
 * strongest tickers), execute the trades with cent truncation, and find the
 * next rebalancing date.
 *
 * The ticker dictionary is a pair: `order` lists its keys in insertion order and
 * `info` maps each key to its record. The operations that mutate the dictionary
 * in place take it and return the updated one.
 */
module Rebalancing {
  import opened Wrappers
  import opened Money
  import opened Calendar
  import opened Calculator
  import opened Ranking

  /** The per-ticker record; every field starts at 0. */
  datatype TickerInfo = TickerInfo(
    weight: real,
    targetNav: real,
    fee: real,
    beforeNav: real,
    afterNav: real,
    momentum: real,
    profitRate: real,
    currentPrice: real)

  const FreshInfo := TickerInfo(0.0, 0.0, 0.0, 0.0, 0.0, 0.0, 0.0, 0.0)

  datatype AccountStatus = AccountStatus(initialNav: real, currentNav: real)

  /** One row of the daily price table. */
  datatype Row = Row(date: Date, ticker: string, price: real)

  datatype Error =
    | KeyError(key: string)  // a dictionary lookup of a ticker without an entry
    | DivisionByZero         // a ticker's first price in the look-back window is 0
    | InvalidDate            // a day of the month that the month does not have
    | NoTradingDate          // no table date on or before the scheduler's target

  /** How many tickers the risk-on branch buys. */
  const TopN: nat := 2

  /** `order` lists the keys of `info`, each once. */
  ghost predicate TickerDict(order: seq<string>, info: map<string, TickerInfo>)
  {
    (forall p, q :: 0 <= p < q < |order| ==> order[p] != order[q])
    && (forall t :: t in info <==> t in order)
  }

  /** Every ticker of the price table has an entry in the dictionary. */
  predicate Covers(info: map<string, TickerInfo>, table: seq<Row>)
  {
    forall k :: 0 <= k < |table| ==> table[k].ticker in info
  }

  // ---------------------------------------------------------------- window

  /** `Series.between(cutoff, start)`: both ends are included. */
  predicate InWindow(d: Date, cutoff: Date, start: Date)
  {
    LessEq(cutoff, d) && LessEq(d, start)
  }

  /** The rows dated inside the window, in table order. */
  function WindowRows(table: seq<Row>, cutoff: Date, start: Date): (r: seq<Row>)
    ensures forall k :: 0 <= k < |r| ==> r[k] in table && InWindow(r[k].date, cutoff, start)
    ensures forall k :: 0 <= k < |table| && InWindow(table[k].date, cutoff, start) ==> table[k] in r
  {
    if table == [] then []
    else
      var rest := WindowRows(table[1..], cutoff, start);
      assert forall x :: x in table[1..] ==> x in table;
      assert forall k :: 1 <= k < |table| ==> table[k] == table[1..][k - 1];
      if InWindow(table[0].date, cutoff, start) then [table[0]] + rest else rest
  }

  /** The prices of one ticker's `groupby` group, in row order. */
  function GroupPrices(rows: seq<Row>, t: string): (r: seq<real>)
    ensures |r| <= |rows|
  {
    if rows == [] then []
    else (if rows[0].ticker == t then [rows[0].price] else []) + GroupPrices(rows[1..], t)
  }

  /** The look-back window of `start`: from `start - n months` to `start`. */
  function LookBack(table: seq<Row>, start: Date, periodMonths: int): (r: seq<Row>)
    ensures forall k :: 0 <= k < |r| ==>
      r[k] in table && LessEq(AddMonths(start, -periodMonths), r[k].date) && LessEq(r[k].date, start)
    ensures forall k :: (0 <= k < |table| && LessEq(AddMonths(start, -periodMonths), table[k].date)
      && LessEq(table[k].date, start)) ==> table[k] in r
  {
    WindowRows(table, AddMonths(start, -periodMonths), start)
  }

  /** The momentum formula would divide by a zero first price. */
  predicate ZeroFirst(prices: seq<real>)
  {
    prices != [] && prices[0] == 0.0
  }

  // ---------------------------------------------------------------- signals

  /** `calculate_profit_rate`: last price over first price; the momentum plus one. */
  function ProfitRate(prices: seq<real>): (r: real)
    requires |prices| > 0 && prices[0] != 0.0
    ensures r == Momentum(prices) + 1.0
  {
    MomentumIsRatioMinusOne(prices);
    Last(prices) / prices[0]
  }

  /**
   * One ticker's signal refresh from its window prices: momentum from the first
   * and last price, profit rate against the previous current price (0 on a cold
   * start), and the last price as the new current price. A ticker without rows in
   * the window is not visited.
   */
  function Refresh(info: TickerInfo, prices: seq<real>): (r: TickerInfo)
    requires !ZeroFirst(prices)
    ensures r.(momentum := info.momentum, profitRate := info.profitRate, currentPrice := info.currentPrice) == info
    ensures prices == [] ==> r == info
    ensures prices != [] ==> r.currentPrice == Last(prices) && r.momentum == r.currentPrice / prices[0] - 1.0
    ensures prices != [] && info.currentPrice != 0.0 ==> r.profitRate * info.currentPrice == r.currentPrice
    ensures prices != [] && info.currentPrice == 0.0 ==> r.profitRate == 0.0
  {
    if prices == [] then info
    else
      MomentumIsRatioMinusOne(prices);
      info.(
        momentum := Momentum(prices),
        profitRate := if info.currentPrice != 0.0 then Last(prices) / info.currentPrice else 0.0,
        currentPrice := Last(prices))
  }

  /** The dictionary after the signal loop over the window's groups. */
  ghost function Signals(info: map<string, TickerInfo>, rows: seq<Row>): (r: map<string, TickerInfo>)
    requires forall t :: t in info ==> !ZeroFirst(GroupPrices(rows, t))
    ensures r.Keys == info.Keys
    ensures forall t :: t in info ==>
      r[t].(momentum := info[t].momentum, profitRate := info[t].profitRate, currentPrice := info[t].currentPrice) == info[t]
    ensures forall t :: t in info && GroupPrices(rows, t) == [] ==> r[t] == info[t]
  {
    map t | t in info :: Refresh(info[t], GroupPrices(rows, t))
  }

  // ---------------------------------------------------------------- weights

  /** The momentum of each dictionary entry, in insertion order. */
  function Momenta(order: seq<string>, info: map<string, TickerInfo>): (ms: seq<real>)
    requires forall k :: 0 <= k < |order| ==> order[k] in info
    ensures |ms| == |order|
    ensures forall k :: 0 <= k < |order| ==> ms[k] == info[order[k]].momentum
  {
    seq(|order|, k requires 0 <= k < |order| => info[order[k]].momentum)
  }

  /** The tickers of the first `k` sorted positions. */
  ghost function Picked(order: seq<string>, ranked: seq<int>, k: int): set<string>
    requires 0 <= k <= |ranked|
    requires forall p :: 0 <= p < |ranked| ==> 0 <= ranked[p] < |order|
  {
    if k == 0 then {} else Picked(order, ranked, k - 1) + {order[ranked[k - 1]]}
  }

  /** `sorted(ticker_info.items(), key=momentum, reverse=True)`, as dictionary positions. */
  function Ranked(order: seq<string>, s: map<string, TickerInfo>): (ranked: seq<int>)
    requires forall k :: 0 <= k < |order| ==> order[k] in s
    ensures |ranked| == |order|
    ensures forall p :: 0 <= p < |ranked| ==> 0 <= ranked[p] < |order|
  {
    StableOrder(Momenta(order, s))
  }

  /** The sorted positions list every entry once, highest momentum first and ties in dictionary order. */
  lemma RankedIsSorted(order: seq<string>, s: map<string, TickerInfo>)
    requires forall k :: 0 <= k < |order| ==> order[k] in s
    ensures Distinct(Ranked(order, s)) && (forall p :: 0 <= p < |order| <==> p in Ranked(order, s))
    ensures InRange(Momenta(order, s), Ranked(order, s)) && Ordered(Momenta(order, s), Ranked(order, s))
  {
  }

  /** Weight 0.5 on the `chosen` tickers; every other entry as it was. */
  ghost function Raise(s: map<string, TickerInfo>, chosen: set<string>): map<string, TickerInfo>
  {
    map t | t in s :: if t in chosen then s[t].(weight := 0.5) else s[t]
  }

  lemma RaiseNothing(s: map<string, TickerInfo>)
    ensures Raise(s, {}) == s
  {
  }

  lemma RaiseOneMore(s: map<string, TickerInfo>, chosen: set<string>, t: string)
    requires t in s
    ensures Raise(s, chosen + {t}) == Raise(s, chosen)[t := Raise(s, chosen)[t].(weight := 0.5)]
  {
  }

  /** Picking the next sorted position raises that one entry's weight to 0.5. */
  lemma RaiseNextPicked(order: seq<string>, s: map<string, TickerInfo>, ranked: seq<int>, k: int)
    requires 0 <= k < |ranked| && forall p :: 0 <= p < |ranked| ==> 0 <= ranked[p] < |order|
    requires order[ranked[k]] in s
    ensures var r := Raise(s, Picked(order, ranked, k)); var t := order[ranked[k]];
      Raise(s, Picked(order, ranked, k + 1)) == r[t := r[t].(weight := 0.5)]
  {
    RaiseOneMore(s, Picked(order, ranked, k), order[ranked[k]]);
  }

  /** Risk-on: weight 0.5 on the first `topN` entries of the stable descending sort; all else kept. */
  ghost function RiskOn(order: seq<string>, s: map<string, TickerInfo>, topN: nat): (r: map<string, TickerInfo>)
    requires forall k :: 0 <= k < |order| ==> order[k] in s
    ensures r.Keys == s.Keys
    ensures forall t :: t in s ==> r[t].(weight := s[t].weight) == s[t] && (r[t].weight == 0.5 || r[t] == s[t])
  {
    var ranked := Ranked(order, s);
    Raise(s, Picked(order, ranked, Min(topN, |order|)))
  }

  /** The dictionary after `calculate_rebalancing_weights`, or the exception it raises. */
  ghost function Weights(
    order: seq<string>, info: map<string, TickerInfo>, table: seq<Row>,
    start: Date, periodMonths: int, topN: nat): (r: Result<map<string, TickerInfo>, Error>)
    requires TickerDict(order, info) && Covers(info, table)
    ensures r.Ok? ==> r.value.Keys == info.Keys
    ensures r == Err(DivisionByZero) <==>
      exists t :: t in info && ZeroFirst(GroupPrices(LookBack(table, start, periodMonths), t))
    ensures r == Err(KeyError("TIP")) <==>
      (forall t :: t in info ==> !ZeroFirst(GroupPrices(LookBack(table, start, periodMonths), t)))
      && "TIP" !in info
    ensures r == Err(KeyError("BIL")) <==>
      (forall t :: t in info ==> !ZeroFirst(GroupPrices(LookBack(table, start, periodMonths), t)))
      && "TIP" in info && "BIL" !in info
      && Signals(info, LookBack(table, start, periodMonths))["TIP"].momentum < 0.0
    ensures r.Err? ==> r.error in {DivisionByZero, KeyError("TIP"), KeyError("BIL")}
  {
    var rows := LookBack(table, start, periodMonths);
    if exists t :: t in info && ZeroFirst(GroupPrices(rows, t)) then Err(DivisionByZero)
    else
      var s := Signals(info, rows);
      if "TIP" !in s then Err(KeyError("TIP"))
      else if s["TIP"].momentum < 0.0 then
        if "BIL" in s then Ok(s["BIL" := s["BIL"].(weight := 1.0)]) else Err(KeyError("BIL"))
      else
        Ok(RiskOn(order, s, topN))
  }

  /**
   * The signal loop of `calculate_rebalancing_weights`: every ticker with rows in
   * the window gets its signal refreshed. A zero first price is a division by zero.
   * The groups are visited in dictionary order here; each update reads and writes
   * only its own ticker's entry, so the visiting order does not matter.
   */
  method UpdateSignals(order: seq<string>, info: map<string, TickerInfo>, rows: seq<Row>)
    returns (res: Result<map<string, TickerInfo>, Error>)
    requires TickerDict(order, info)
    ensures res.Err? <==> exists t :: t in info && ZeroFirst(GroupPrices(rows, t))
    ensures res.Err? ==> res.error == DivisionByZero
    ensures res.Ok? ==> (forall t :: t in info ==> !ZeroFirst(GroupPrices(rows, t))) && res.value == Signals(info, rows)
  {
    var cur := info;
    var i := 0;
    while i < |order|
      invariant 0 <= i <= |order|
      invariant cur.Keys == info.Keys
      invariant forall j :: 0 <= j < i ==> !ZeroFirst(GroupPrices(rows, order[j]))
      invariant forall j :: 0 <= j < i ==> cur[order[j]] == Refresh(info[order[j]], GroupPrices(rows, order[j]))
      invariant forall j :: i <= j < |order| ==> cur[order[j]] == info[order[j]]
    {
      var t := order[i];
      var prices := GroupPrices(rows, t);
      if ZeroFirst(prices) {
        assert t in info && ZeroFirst(GroupPrices(rows, t));
        return Err(DivisionByZero);
      }
      ghost var prev := cur;
      cur := cur[t := Refresh(cur[t], prices)];
      forall j | 0 <= j < |order|
        ensures cur[order[j]] == if j == i then Refresh(info[t], prices) else prev[order[j]]
      {
        if j != i {
          assert order[j] != t;
        }
      }
      i := i + 1;
    }
    forall t | t in info ensures !ZeroFirst(GroupPrices(rows, t)) && cur[t] == Refresh(info[t], GroupPrices(rows, t)) {
      var j :| 0 <= j < |order| && order[j] == t;
    }
    return Ok(cur);
  }

  /**
   * The risk-on loop: `sorted(..., reverse=True)[:top_n]` gets weight 0.5; every
   * other entry keeps the weight it had.
   */
  method BuyTop(order: seq<string>, s: map<string, TickerInfo>, topN: nat) returns (r: map<string, TickerInfo>)
    requires forall k :: 0 <= k < |order| ==> order[k] in s
    ensures r == RiskOn(order, s, topN)
  {
    var ranked := Ranked(order, s);
    var m := Min(topN, |order|);
    r := s;
    var k := 0;
    RaiseNothing(s);
    while k < m
      invariant 0 <= k <= m
      invariant r.Keys == s.Keys
      invariant r == Raise(s, Picked(order, ranked, k))
    {
      var t := order[ranked[k]];
      RaiseNextPicked(order, s, ranked, k);
      r := r[t := r[t].(weight := 0.5)];
      k := k + 1;
    }
  }

  /**
   * `calculate_rebalancing_weights`: refresh the signals of every ticker with rows
   * in the window, then set BIL's weight to 1 when TIP's momentum is negative,
   * else set weight 0.5 on the first `topN` tickers by momentum. No weight is
   * ever reset.
   */
  method CalculateRebalancingWeights(
    order: seq<string>, info: map<string, TickerInfo>, table: seq<Row>,
    start: Date, periodMonths: int, topN: nat) returns (res: Result<map<string, TickerInfo>, Error>)
    requires TickerDict(order, info) && Covers(info, table)
    ensures res == Weights(order, info, table, start, periodMonths, topN)
  {
    var rows := LookBack(table, start, periodMonths);
    var signals := UpdateSignals(order, info, rows);
    if signals.Err? {
      return Err(signals.error);
    }
    var cur := signals.value;
    if "TIP" !in cur {
      return Err(KeyError("TIP"));
    }
    if cur["TIP"].momentum < 0.0 {
      if "BIL" !in cur {
        return Err(KeyError("BIL"));
      }
      return Ok(cur["BIL" := cur["BIL"].(weight := 1.0)]);
    }
    cur := BuyTop(order, cur, topN);
    return Ok(cur);
  }

  // ---------------------------------------------------------------- trades

  /**
   * `purchase_amount`: the target value `ideal` truncated to cents, less the
   * current value, truncated again; so it misses the exact gap by under two cents.
   */
  function PurchaseAmount(ideal: real, before: real): (p: real)
    ensures IsCents(p)
    ensures -0.02 < p - (ideal - before) < 0.02
    ensures exists c :: CentsBelow(c, ideal) && CentsBelow(p, c - before)
  {
    var c := Trunc2(ideal);
    assert CentsBelow(c, ideal);
    Trunc2(c - before)
  }

  /** Truncating the target before taking the gap is observable: one truncation of the exact gap gives a cent more here. */
  lemma PurchaseTruncatesTwice()
    ensures PurchaseAmount(100.005, 50.003) == 49.99
    ensures Trunc2(100.005 - 50.003) == 50.0
  {
  }

  /** `c` is `x` cut to whole cents toward zero: on the same side of 0, no farther out, and less than a cent in. */
  predicate CentsBelow(c: real, x: real)
  {
    IsCents(c) && TowardZero(c, x) && -0.01 < x - c < 0.01
  }

  /**
   * `after_nav`: the purchase less the fee, truncated to cents toward zero; a fee
   * rate in [0, 1] never grows it.
   */
  function AfterFee(purchase: real, tradingFee: real): (a: real)
    ensures IsCents(a)
    ensures CentsBelow(a, purchase * (1.0 - tradingFee))
    ensures 0.0 <= tradingFee <= 1.0 ==> TowardZero(a, purchase)
  {
    var net := purchase * (1.0 - tradingFee);
    assert 0.0 <= tradingFee <= 1.0 ==> TowardZero(net, purchase) by {
      if 0.0 <= tradingFee <= 1.0 {
        var c := 1.0 - tradingFee;
        ScaleShrinks(purchase, c);
        assert net == purchase * c;
      }
    }
    Trunc2(net)
  }

  /**
   * `fee`: the purchase times the fee rate truncated to cents (the truncation
   * applies to the rate, not to the product), so a rate below 1% records no fee.
   */
  function RecordedFee(purchase: real, tradingFee: real): (f: real)
    ensures 0.0 <= tradingFee < 0.01 ==> f == 0.0
    ensures exists c :: CentsBelow(c, tradingFee) && f == purchase * c
    ensures IsCents(tradingFee) ==> f == purchase * tradingFee
    ensures 0.0 <= tradingFee ==> TowardZero(f, purchase * tradingFee)
  {
    var c := Trunc2(tradingFee);
    assert IsCents(tradingFee) ==> c == tradingFee by {
      if IsCents(tradingFee) {
        Trunc2OfCents(tradingFee);
      }
    }
    assert 0.0 <= tradingFee < 0.01 ==> c == 0.0 by {
      if 0.0 <= tradingFee < 0.01 {
        Trunc2BelowOneCent(tradingFee);
      }
    }
    FeeAtTruncatedRate(purchase, tradingFee, c);
    purchase * c
  }

  /** The fee charged at a rate `c` that is `rate` cut to whole cents, as `RecordedFee` states it. */
  lemma FeeAtTruncatedRate(purchase: real, rate: real, c: real)
    requires CentsBelow(c, rate)
    requires IsCents(rate) ==> c == rate
    requires 0.0 <= rate < 0.01 ==> c == 0.0
    ensures 0.0 <= rate < 0.01 ==> purchase * c == 0.0
    ensures exists c' :: CentsBelow(c', rate) && purchase * c == purchase * c'
    ensures IsCents(rate) ==> purchase * c == purchase * rate
    ensures 0.0 <= rate ==> TowardZero(purchase * c, purchase * rate)
  {
    if 0.0 <= rate {
      FeeShrinks(purchase, c, rate);
    }
  }

  /** A smaller non-negative rate gives a product on the same side of 0 and no larger in magnitude. */
  lemma FeeShrinks(p: real, c: real, d: real)
    requires 0.0 <= c <= d
    ensures TowardZero(p * c, p * d)
  {
    if p >= 0.0 {
      assert p * c <= p * d;
    } else {
      assert p * c >= p * d;
    }
  }

  /**
   * One ticker's trade against the account's NAV `totalNav`: the position is scaled
   * by `1 + profit_rate` (a price ratio, so a flat price doubles it), the purchase is
   * the gap to the target weight, and the fee is charged on it.
   */
  function Trade(info: TickerInfo, totalNav: real, tradingFee: real): (r: TickerInfo)
    ensures r.beforeNav == info.afterNav * (1.0 + info.profitRate)
    ensures IsCents(r.targetNav) && IsCents(r.afterNav)
    ensures -0.02 < r.targetNav - (totalNav * info.weight - r.beforeNav) < 0.02
    ensures r.targetNav == PurchaseAmount(totalNav * info.weight, r.beforeNav)
    ensures 0.0 <= tradingFee <= 1.0 ==> TowardZero(r.afterNav, r.targetNav)
    ensures r.afterNav == AfterFee(r.targetNav, tradingFee) && r.fee == RecordedFee(r.targetNav, tradingFee)
    ensures 0.0 <= tradingFee < 0.01 ==> r.fee == 0.0
    ensures r.(beforeNav := info.beforeNav, targetNav := info.targetNav, afterNav := info.afterNav, fee := info.fee) == info
  {
    var before := info.afterNav * (1.0 + info.profitRate);
    var purchase := PurchaseAmount(totalNav * info.weight, before);
    var after := AfterFee(purchase, tradingFee);
    var fee := RecordedFee(purchase, tradingFee);
    info.(beforeNav := before, targetNav := purchase, afterNav := after, fee := fee)
  }

  /** The dictionary after `execute_trades`: every ticker traded against the same NAV. */
  function Trades(info: map<string, TickerInfo>, totalNav: real, tradingFee: real): (r: map<string, TickerInfo>)
    ensures r.Keys == info.Keys
    ensures forall t :: t in info ==>
      r[t].(beforeNav := info[t].beforeNav, targetNav := info[t].targetNav, afterNav := info[t].afterNav, fee := info[t].fee) == info[t]
      && IsCents(r[t].targetNav) && IsCents(r[t].afterNav)
      && -0.02 < r[t].targetNav - (totalNav * info[t].weight - r[t].beforeNav) < 0.02
    ensures forall t :: t in info ==> r[t] == Trade(info[t], totalNav, tradingFee)
  {
    var r := map t | t in info :: Trade(info[t], totalNav, tradingFee);
    assert forall t :: t in info ==> r[t] == Trade(info[t], totalNav, tradingFee);
    r
  }

  /**
   * `execute_trades`: visits the tickers in dictionary order and rewrites each
   * one's NAV fields. The account is only read, and is handed back as it was.
   */
  method ExecuteTrades(order: seq<string>, info: map<string, TickerInfo>, account: AccountStatus, tradingFee: real)
    returns (traded: map<string, TickerInfo>, accountOut: AccountStatus)
    requires TickerDict(order, info)
    ensures traded.Keys == info.Keys
    ensures forall t :: t in info ==> traded[t] == Trade(info[t], account.currentNav, tradingFee)
    ensures traded == Trades(info, account.currentNav, tradingFee)
    ensures accountOut == account
  {
    var totalNav := account.currentNav;
    traded := info;
    var i := 0;
    while i < |order|
      invariant 0 <= i <= |order|
      invariant traded.Keys == info.Keys
      invariant forall j :: 0 <= j < i ==> traded[order[j]] == Trade(info[order[j]], totalNav, tradingFee)
      invariant forall j :: i <= j < |order| ==> traded[order[j]] == info[order[j]]
    {
      var t := order[i];
      ghost var prev := traded;
      traded := traded[t := Trade(traded[t], totalNav, tradingFee)];
      forall j | 0 <= j < |order|
        ensures traded[order[j]] == if j == i then Trade(info[t], totalNav, tradingFee) else prev[order[j]]
      {
        if j != i {
          assert order[j] != t;
        }
      }
      i := i + 1;
    }
    forall t | t in info ensures traded[t] == Trade(info[t], totalNav, tradingFee) {
      var j :| 0 <= j < |order| && order[j] == t;
    }
    assert traded == Trades(info, totalNav, tradingFee);
    accountOut := account;
  }

  // ---------------------------------------------------------------- scheduler

  /** `available_dates.max()` over the table dates on or before `target`. */
  function LatestOnOrBefore(table: seq<Row>, target: Date): (r: Option<Date>)
    ensures r.None? <==> forall k :: 0 <= k < |table| ==> !LessEq(table[k].date, target)
    ensures r.Some? ==> LessEq(r.value, target)
    ensures r.Some? ==> exists k :: 0 <= k < |table| && table[k].date == r.value
    ensures r.Some? ==> forall k :: 0 <= k < |table| && LessEq(table[k].date, target) ==> LessEq(table[k].date, r.value)
  {
    if table == [] then None
    else
      var rest := LatestOnOrBefore(table[1..], target);
      var d := table[0].date;
      assert forall k :: 1 <= k < |table| ==> table[k] == table[1..][k - 1];
      if !LessEq(d, target) then rest
      else if rest.Some? && LessEq(d, rest.value) then rest
      else Some(d)
  }

  /** The scheduler's target: `current + n months`, with the day replaced by `tradingDay`. */
  function TradingTarget(current: Date, periodMonths: int, tradingDay: int): (r: Date)
    ensures 1 <= r.month <= 12 && MonthIndex(r) == MonthIndex(current) + periodMonths && r.day == tradingDay
    ensures ValidDate(r) <==> 1 <= tradingDay <= DaysInMonth(r.year, r.month)
  {
    var next := AddMonths(current, periodMonths);
    Date(next.year, next.month, tradingDay)
  }

  /**
   * `get_next_trading_date`: the latest table date on or before the target. Building
   * the target fails when the month has no such day.
   */
  function NextTradingDate(table: seq<Row>, current: Date, tradingDay: int, periodMonths: int): (r: Result<Date, Error>)
    ensures r == Err(InvalidDate) <==> !ValidDate(TradingTarget(current, periodMonths, tradingDay))
    ensures r == Err(NoTradingDate) <==>
      ValidDate(TradingTarget(current, periodMonths, tradingDay))
      && forall k :: 0 <= k < |table| ==> !LessEq(table[k].date, TradingTarget(current, periodMonths, tradingDay))
    ensures r.Ok? ==> exists k :: 0 <= k < |table| && table[k].date == r.value
    ensures r.Ok? ==> LessEq(r.value, TradingTarget(current, periodMonths, tradingDay))
    ensures r.Err? ==> r.error == InvalidDate || r.error == NoTradingDate
  {
    var next := AddMonths(current, periodMonths);
    match MakeDate(next.year, next.month, tradingDay)
    case None => Err(InvalidDate)
    case Some(target) =>
      match LatestOnOrBefore(table, target)
      case None => Err(NoTradingDate)
      case Some(d) => Ok(d)
  }

  // ---------------------------------------------------------------- properties

  /** A ticker's group is empty exactly when no window row is of that ticker. */
  lemma {:induction false} GroupPricesEmpty(rows: seq<Row>, t: string)
    ensures GroupPrices(rows, t) == [] <==> forall k :: 0 <= k < |rows| ==> rows[k].ticker != t
  {
    if rows != [] {
      GroupPricesEmpty(rows[1..], t);
      assert forall k :: 1 <= k < |rows| ==> rows[k] == rows[1..][k - 1];
    }
  }

  /** Every price of a ticker's group is the price of one of that ticker's rows. */
  lemma {:induction false} GroupPricesFromRows(rows: seq<Row>, t: string, i: int)
    requires 0 <= i < |GroupPrices(rows, t)|
    ensures exists k :: 0 <= k < |rows| && rows[k].ticker == t && rows[k].price == GroupPrices(rows, t)[i]
  {
    var head := if rows[0].ticker == t then [rows[0].price] else [];
    assert GroupPrices(rows, t) == head + GroupPrices(rows[1..], t);
    if i < |head| {
      assert rows[0].price == GroupPrices(rows, t)[i];
    } else {
      GroupPricesFromRows(rows[1..], t, i - |head|);
      var k :| 0 <= k < |rows[1..]| && rows[1..][k].ticker == t && rows[1..][k].price == GroupPrices(rows[1..], t)[i - |head|];
      assert rows[k + 1] == rows[1..][k];
    }
  }

  /** `iloc[0]`: the first group price is the price of the ticker's first window row. */
  lemma {:induction false} GroupPricesFirst(rows: seq<Row>, t: string)
    requires GroupPrices(rows, t) != []
    ensures exists k :: (0 <= k < |rows| && rows[k].ticker == t && rows[k].price == GroupPrices(rows, t)[0]
      && forall j :: 0 <= j < k ==> rows[j].ticker != t)
  {
    if rows[0].ticker != t {
      GroupPricesFirst(rows[1..], t);
      var rest := rows[1..];
      var k :| 0 <= k < |rest| && rest[k].ticker == t && rest[k].price == GroupPrices(rest, t)[0]
        && forall j :: 0 <= j < k ==> rest[j].ticker != t;
      assert rows[k + 1] == rest[k];
      assert forall j :: 1 <= j < k + 1 ==> rows[j] == rest[j - 1];
    }
  }

  /** `iloc[-1]`: the last group price is the price of the ticker's last window row. */
  lemma {:induction false} GroupPricesLast(rows: seq<Row>, t: string)
    requires GroupPrices(rows, t) != []
    ensures exists k :: (0 <= k < |rows| && rows[k].ticker == t && rows[k].price == Last(GroupPrices(rows, t))
      && forall j :: k < j < |rows| ==> rows[j].ticker != t)
  {
    var rest := rows[1..];
    var head := if rows[0].ticker == t then [rows[0].price] else [];
    assert GroupPrices(rows, t) == head + GroupPrices(rest, t);
    if GroupPrices(rest, t) != [] {
      GroupPricesLast(rest, t);
      var k :| 0 <= k < |rest| && rest[k].ticker == t && rest[k].price == Last(GroupPrices(rest, t))
        && forall j :: k < j < |rest| ==> rest[j].ticker != t;
      assert Last(GroupPrices(rows, t)) == Last(GroupPrices(rest, t));
      assert rows[k + 1] == rest[k];
      forall j | k + 1 < j < |rows|
        ensures rows[j].ticker != t
      {
        assert rows[j] == rest[j - 1];
      }
      assert 0 <= k + 1 < |rows| && rows[k + 1].ticker == t && rows[k + 1].price == Last(GroupPrices(rows, t));
    } else {
      GroupPricesEmpty(rest, t);
      forall j | 0 < j < |rows|
        ensures rows[j].ticker != t
      {
        assert rows[j] == rest[j - 1];
      }
      assert rows[0].ticker == t && rows[0].price == Last(GroupPrices(rows, t));
    }
  }

  /** A table row of ticker `t` dated inside the window. */
  predicate InGroup(row: Row, cutoff: Date, start: Date, t: string)
  {
    InWindow(row.date, cutoff, start) && row.ticker == t
  }

  /** The prices of the table rows in a ticker's window group, in table order. */
  function GroupInTable(table: seq<Row>, cutoff: Date, start: Date, t: string): seq<real>
  {
    if table == [] then []
    else (if InGroup(table[0], cutoff, start, t) then [table[0].price] else []) + GroupInTable(table[1..], cutoff, start, t)
  }

  /** Filtering the window and then grouping by ticker keeps the table order of the group's rows. */
  lemma {:induction false} GroupOfWindowInTableOrder(table: seq<Row>, cutoff: Date, start: Date, t: string)
    ensures GroupPrices(WindowRows(table, cutoff, start), t) == GroupInTable(table, cutoff, start, t)
  {
    if table != [] {
      var rest := WindowRows(table[1..], cutoff, start);
      if InWindow(table[0].date, cutoff, start) {
        assert ([table[0]] + rest)[1..] == rest;
      }
      GroupOfWindowInTableOrder(table[1..], cutoff, start, t);
    }
  }

  lemma {:induction false} GroupInTableEmpty(table: seq<Row>, cutoff: Date, start: Date, t: string)
    ensures GroupInTable(table, cutoff, start, t) == [] <==> forall k :: 0 <= k < |table| ==> !InGroup(table[k], cutoff, start, t)
  {
    if table != [] {
      GroupInTableEmpty(table[1..], cutoff, start, t);
      assert forall k :: 1 <= k < |table| ==> table[k] == table[1..][k - 1];
    }
  }

  lemma {:induction false} GroupInTableFirst(table: seq<Row>, cutoff: Date, start: Date, t: string)
    requires GroupInTable(table, cutoff, start, t) != []
    ensures exists k :: (0 <= k < |table| && InGroup(table[k], cutoff, start, t)
      && table[k].price == GroupInTable(table, cutoff, start, t)[0]
      && forall j :: 0 <= j < k ==> !InGroup(table[j], cutoff, start, t))
  {
    if !InGroup(table[0], cutoff, start, t) {
      var rest := table[1..];
      GroupInTableFirst(rest, cutoff, start, t);
      var k :| 0 <= k < |rest| && InGroup(rest[k], cutoff, start, t)
        && rest[k].price == GroupInTable(rest, cutoff, start, t)[0]
        && forall j :: 0 <= j < k ==> !InGroup(rest[j], cutoff, start, t);
      assert table[k + 1] == rest[k];
      assert forall j :: 1 <= j < k + 1 ==> table[j] == rest[j - 1];
    }
  }

  lemma {:induction false} GroupInTableLast(table: seq<Row>, cutoff: Date, start: Date, t: string)
    requires GroupInTable(table, cutoff, start, t) != []
    ensures exists k :: (0 <= k < |table| && InGroup(table[k], cutoff, start, t)
      && table[k].price == Last(GroupInTable(table, cutoff, start, t))
      && forall j :: k < j < |table| ==> !InGroup(table[j], cutoff, start, t))
  {
    var rest := table[1..];
    GroupInTableEmpty(rest, cutoff, start, t);
    assert forall j :: 1 <= j < |table| ==> table[j] == rest[j - 1];
    if GroupInTable(rest, cutoff, start, t) != [] {
      GroupInTableLast(rest, cutoff, start, t);
      var k :| 0 <= k < |rest| && InGroup(rest[k], cutoff, start, t)
        && rest[k].price == Last(GroupInTable(rest, cutoff, start, t))
        && forall j :: k < j < |rest| ==> !InGroup(rest[j], cutoff, start, t);
      assert table[k + 1] == rest[k];
    }
  }

  /**
   * `iloc[0]` of a ticker's group in the window: the price of the lowest table
   * index in that group, so table order decides it.
   */
  lemma WindowGroupFirst(table: seq<Row>, cutoff: Date, start: Date, t: string)
    requires GroupPrices(WindowRows(table, cutoff, start), t) != []
    ensures exists k :: (0 <= k < |table| && InGroup(table[k], cutoff, start, t)
      && table[k].price == GroupPrices(WindowRows(table, cutoff, start), t)[0]
      && forall j :: 0 <= j < k ==> !InGroup(table[j], cutoff, start, t))
  {
    GroupOfWindowInTableOrder(table, cutoff, start, t);
    GroupInTableFirst(table, cutoff, start, t);
  }

  /**
   * `iloc[-1]` of a ticker's group in the window: the price of the highest table
   * index in that group.
   */
  lemma WindowGroupLast(table: seq<Row>, cutoff: Date, start: Date, t: string)
    requires GroupPrices(WindowRows(table, cutoff, start), t) != []
    ensures exists k :: (0 <= k < |table| && InGroup(table[k], cutoff, start, t)
      && table[k].price == Last(GroupPrices(WindowRows(table, cutoff, start), t))
      && forall j :: k < j < |table| ==> !InGroup(table[j], cutoff, start, t))
  {
    GroupOfWindowInTableOrder(table, cutoff, start, t);
    GroupInTableLast(table, cutoff, start, t);
  }

  lemma {:induction false} WindowRowsIdempotent(table: seq<Row>, cutoff: Date, start: Date)
    ensures WindowRows(WindowRows(table, cutoff, start), cutoff, start) == WindowRows(table, cutoff, start)
  {
    if table != [] {
      WindowRowsIdempotent(table[1..], cutoff, start);
    }
  }

  /**
   * Only rows dated between `start - n months` and `start`, both included, affect the
   * weights: running on the look-back rows alone gives the same outcome.
   */
  lemma WeightsReadOnlyWindow(
    order: seq<string>, info: map<string, TickerInfo>, table: seq<Row>,
    start: Date, periodMonths: int, topN: nat)
    requires TickerDict(order, info) && Covers(info, table)
    ensures Covers(info, LookBack(table, start, periodMonths))
    ensures Weights(order, info, LookBack(table, start, periodMonths), start, periodMonths, topN)
         == Weights(order, info, table, start, periodMonths, topN)
  {
    var cutoff := AddMonths(start, -periodMonths);
    var rows := LookBack(table, start, periodMonths);
    forall k | 0 <= k < |rows| ensures rows[k].ticker in info {
      var j :| 0 <= j < |table| && table[j] == rows[k];
    }
    WindowRowsIdempotent(table, cutoff, start);
  }

  /**
   * The signal refresh: a ticker with rows in the window gets momentum from its
   * first and last window price, a profit rate against its previous current price
   * (0 when that was 0) and the last price as current price; a ticker without rows
   * keeps all three. The trade fields are never touched.
   */
  lemma WeightsRefreshSignals(
    order: seq<string>, info: map<string, TickerInfo>, table: seq<Row>,
    start: Date, periodMonths: int, topN: nat, t: string)
    requires TickerDict(order, info) && Covers(info, table) && t in info
    requires Weights(order, info, table, start, periodMonths, topN).Ok?
    ensures var w := Weights(order, info, table, start, periodMonths, topN).value;
      var ps := GroupPrices(LookBack(table, start, periodMonths), t);
      && (ps == [] ==> w[t].momentum == info[t].momentum && w[t].profitRate == info[t].profitRate
                       && w[t].currentPrice == info[t].currentPrice)
      && (ps != [] ==> ps[0] != 0.0 && w[t].momentum == Momentum(ps) && w[t].currentPrice == Last(ps)
                       && w[t].profitRate == (if info[t].currentPrice == 0.0 then 0.0 else Last(ps) / info[t].currentPrice))
      && w[t].targetNav == info[t].targetNav && w[t].afterNav == info[t].afterNav
      && w[t].beforeNav == info[t].beforeNav && w[t].fee == info[t].fee
  {
    var rows := LookBack(table, start, periodMonths);
    WeightsChangeOnlyWeight(order, info, table, start, periodMonths, topN, t);
    var s := Signals(info, rows);
    assert s[t] == Refresh(info[t], GroupPrices(rows, t));
  }

  /** Apart from its weight, every entry after the weight step is its signal refresh. */
  lemma WeightsChangeOnlyWeight(
    order: seq<string>, info: map<string, TickerInfo>, table: seq<Row>,
    start: Date, periodMonths: int, topN: nat, t: string)
    requires TickerDict(order, info) && Covers(info, table) && t in info
    requires Weights(order, info, table, start, periodMonths, topN).Ok?
    ensures forall u :: u in info ==> !ZeroFirst(GroupPrices(LookBack(table, start, periodMonths), u))
    ensures var s := Signals(info, LookBack(table, start, periodMonths));
      Weights(order, info, table, start, periodMonths, topN).value[t].(weight := s[t].weight) == s[t]
  {
    var s := Signals(info, LookBack(table, start, periodMonths));
    PickedKeepsMomentum(order, s, topN);
  }

  /**
   * Risk-off: when TIP's refreshed momentum is negative, BIL's weight becomes 1 and
   * no other ticker's weight changes.
   */
  lemma WeightsRiskOff(
    order: seq<string>, info: map<string, TickerInfo>, table: seq<Row>,
    start: Date, periodMonths: int, topN: nat)
    requires TickerDict(order, info) && Covers(info, table)
    requires Weights(order, info, table, start, periodMonths, topN).Ok?
    requires Weights(order, info, table, start, periodMonths, topN).value["TIP"].momentum < 0.0
    ensures var w := Weights(order, info, table, start, periodMonths, topN).value;
      && w["BIL"].weight == 1.0
      && forall t :: t in info && t != "BIL" ==> w[t].weight == info[t].weight
  {
    var rows := LookBack(table, start, periodMonths);
    var s := Signals(info, rows);
    PickedKeepsMomentum(order, s, topN);
  }

  /** Raising weights leaves every momentum as it was. */
  lemma PickedKeepsMomentum(order: seq<string>, s: map<string, TickerInfo>, topN: nat)
    requires TickerDict(order, s)
    ensures RiskOn(order, s, topN).Keys == s.Keys
    ensures forall t :: t in s ==> RiskOn(order, s, topN)[t].momentum == s[t].momentum
  {
  }

  /** A ticker is among the picked ones exactly when its position is among the first `m` sorted positions. */
  lemma {:induction false} PickedIff(order: seq<string>, ranked: seq<int>, m: int, i: int)
    requires forall p, q :: 0 <= p < q < |order| ==> order[p] != order[q]
    requires 0 <= m <= |ranked| && 0 <= i < |order|
    requires forall p :: 0 <= p < |ranked| ==> 0 <= ranked[p] < |order|
    ensures order[i] in Picked(order, ranked, m) <==> i in ranked[..m]
    decreases m
  {
    if m > 0 {
      PickedIff(order, ranked, m - 1, i);
      assert ranked[..m] == ranked[..m - 1] + [ranked[m - 1]];
    }
  }

  /**
   * Risk-on: when TIP's refreshed momentum is not negative, the dictionary entry at
   * position `i` gets weight 0.5 exactly when fewer than `topN` entries come before
   * it in the stable descending momentum order (BIL and TIP included), and keeps
   * its previous weight otherwise. Exactly `min(topN, |order|)` entries are bought.
   */
  lemma WeightsRiskOn(
    order: seq<string>, info: map<string, TickerInfo>, table: seq<Row>,
    start: Date, periodMonths: int, topN: nat, i: int)
    requires TickerDict(order, info) && Covers(info, table) && 0 <= i < |order|
    requires Weights(order, info, table, start, periodMonths, topN).Ok?
    requires Weights(order, info, table, start, periodMonths, topN).value["TIP"].momentum >= 0.0
    ensures var w := Weights(order, info, table, start, periodMonths, topN).value;
      var ms := Momenta(order, w);
      && w[order[i]].weight == (if Rank(ms, i) < topN then 0.5 else info[order[i]].weight)
      && |set j | 0 <= j < |order| && Rank(ms, j) < topN| == Min(topN, |order|)
  {
    var rows := LookBack(table, start, periodMonths);
    var s := Signals(info, rows);
    PickedKeepsMomentum(order, s, topN);
    assert Weights(order, info, table, start, periodMonths, topN).value == RiskOn(order, s, topN);
    assert s[order[i]].weight == info[order[i]].weight;
    RiskOnPicks(order, s, topN, i);
  }

  /** The ranking argument behind `WeightsRiskOn`, on the refreshed dictionary alone. */
  lemma RiskOnPicks(order: seq<string>, s: map<string, TickerInfo>, topN: nat, i: int)
    requires TickerDict(order, s) && 0 <= i < |order|
    ensures var w := RiskOn(order, s, topN);
      var ms := Momenta(order, w);
      && w[order[i]].weight == (if Rank(ms, i) < topN then 0.5 else s[order[i]].weight)
      && |set j | 0 <= j < |order| && Rank(ms, j) < topN| == Min(topN, |order|)
  {
    PickedKeepsMomentum(order, s, topN);
    assert Momenta(order, RiskOn(order, s, topN)) == Momenta(order, s);
    var ms := Momenta(order, s);
    var m := Min(topN, |order|);
    PickedIff(order, Ranked(order, s), m, i);
    InPrefixIffRankBelow(ms, i, m);
    assert Rank(ms, i) < |ms| by {
      InPrefixIffRankBelow(ms, i, |ms|);
      assert StableOrder(ms)[..|ms|] == StableOrder(ms);
    }
    CountRankBelow(ms, topN);
  }

  /** Every weight is 0, 0.5 or 1. */
  predicate WeightsInGrid(info: map<string, TickerInfo>)
  {
    forall t :: t in info ==> info[t].weight in {0.0, 0.5, 1.0}
  }

  /** Weights only ever take the values 0, 0.5 and 1, pass after pass. */
  lemma WeightsStayInGrid(
    order: seq<string>, info: map<string, TickerInfo>, table: seq<Row>,
    start: Date, periodMonths: int, topN: nat)
    requires TickerDict(order, info) && Covers(info, table) && WeightsInGrid(info)
    requires Weights(order, info, table, start, periodMonths, topN).Ok?
    ensures WeightsInGrid(Weights(order, info, table, start, periodMonths, topN).value)
  {
    var s := Signals(info, LookBack(table, start, periodMonths));
    assert WeightsInGrid(s);
  }

  /** The scheduler's date is the latest table date up to the target: no table date lies strictly between. */
  lemma NoTableDateBetween(table: seq<Row>, current: Date, tradingDay: int, periodMonths: int, k: int)
    requires NextTradingDate(table, current, tradingDay, periodMonths).Ok?
    requires 0 <= k < |table|
    ensures var d := NextTradingDate(table, current, tradingDay, periodMonths).value;
      !(LessEq(d, table[k].date) && d != table[k].date
        && LessEq(table[k].date, TradingTarget(current, periodMonths, tradingDay)))
  {
  }

  /**
   * With a step of at least one month, the scheduler never moves back from a date
   * that is in the table.
   */
  lemma SchedulerNeverMovesBack(table: seq<Row>, current: Date, tradingDay: int, periodMonths: int)
    requires ValidDate(current) && 1 <= periodMonths
    requires exists k :: 0 <= k < |table| && table[k].date == current
    requires NextTradingDate(table, current, tradingDay, periodMonths).Ok?
    ensures LessEq(current, NextTradingDate(table, current, tradingDay, periodMonths).value)
  {
    var target := TradingTarget(current, periodMonths, tradingDay);
    MonthIndexOrder(current, target);
  }

  /**
   * The scheduler stalls, which ends the backtest, when no table date later than the
   * current one is on or before the target.
   */
  lemma SchedulerStalls(table: seq<Row>, current: Date, tradingDay: int, periodMonths: int)
    requires ValidDate(TradingTarget(current, periodMonths, tradingDay))
    requires exists k :: 0 <= k < |table| && table[k].date == current
    requires LessEq(current, TradingTarget(current, periodMonths, tradingDay))
    requires forall k :: (0 <= k < |table| && LessEq(table[k].date, TradingTarget(current, periodMonths, tradingDay))
      ==> LessEq(table[k].date, current))
    ensures NextTradingDate(table, current, tradingDay, periodMonths) == Ok(current)
  {
  }
}

=== FILE: service.dfy ===
/**
 * `RebalancingService.run_rebalancing`: an initial ticker dictionary, then at most
 * three passes of weights, trades, NAV record and next date, stopping early when
 * the scheduler does not move.
 */
module Service {
  import opened Wrappers
  import opened Money
  import opened Calendar
  import opened Rebalancing

  /** The pass cap: the loop breaks once its counter exceeds 2. */
  const MaxPasses: nat := 3

  /** `table[k]` is the first row of ticker `t`. */
  ghost predicate IsFirstRow(table: seq<Row>, t: string, k: int)
  {
    0 <= k < |table| && table[k].ticker == t && forall j :: 0 <= j < k ==> table[j].ticker != t
  }

  /** `stock_data["ticker"].unique()`: every ticker of the table once, in order of first appearance. */
  function UniqueTickers(table: seq<Row>): (r: seq<string>)
    ensures forall p, q :: 0 <= p < q < |r| ==> r[p] != r[q]
    ensures forall t :: t in r <==> exists k :: 0 <= k < |table| && table[k].ticker == t
    ensures forall p, q, kp, kq :: 0 <= p < q < |r| && IsFirstRow(table, r[p], kp) && IsFirstRow(table, r[q], kq) ==> kp < kq
  {
    if table == [] then []
    else
      var init := table[..|table| - 1];
      var u := UniqueTickers(init);
      var t := table[|table| - 1].ticker;
      assert forall k :: 0 <= k < |init| ==> init[k] == table[k];
      assert forall x, k :: IsFirstRow(table, x, k) && k < |init| ==> IsFirstRow(init, x, k);
      assert forall x, k :: x in u && IsFirstRow(table, x, k) ==> k < |init|;
      if t in u then u else u + [t]
  }

  /** `{ticker: TickerInfo() for ticker in ...}`: every ticker with all fields 0. */
  function FreshDict(order: seq<string>): (info: map<string, TickerInfo>)
    ensures forall t :: t in info <==> t in order
    ensures forall t :: t in info ==> info[t] == FreshInfo
    ensures (forall p, q :: 0 <= p < q < |order| ==> order[p] != order[q]) ==> TickerDict(order, info)
    ensures WeightsInGrid(info) && AmountsInCents(info)
  {
    map t | t in order :: FreshInfo
  }

  /** One pass of the loop body: weights, then trades against the account's NAV. */
  ghost function Pass(
    order: seq<string>, info: map<string, TickerInfo>, table: seq<Row>, date: Date,
    rebalanceMonthPeriod: int, totalNav: real, tradingFee: real): (r: Result<map<string, TickerInfo>, Error>)
    requires TickerDict(order, info) && Covers(info, table)
    ensures r.Ok? ==> r.value.Keys == info.Keys
  {
    match Weights(order, info, table, date, rebalanceMonthPeriod, TopN)
    case Err(e) => Err(e)
    case Ok(w) => Ok(Trades(w, totalNav, tradingFee))
  }

  /** The dictionary after one pass on each of `dates`, in order, or the first failure. */
  ghost function RunPasses(
    order: seq<string>, info: map<string, TickerInfo>, table: seq<Row>, dates: seq<Date>,
    rebalanceMonthPeriod: int, totalNav: real, tradingFee: real): (r: Result<map<string, TickerInfo>, Error>)
    requires TickerDict(order, info) && Covers(info, table)
    ensures r.Ok? ==> r.value.Keys == info.Keys
    decreases |dates|
  {
    if dates == [] then Ok(info)
    else
      match RunPasses(order, info, table, dates[..|dates| - 1], rebalanceMonthPeriod, totalNav, tradingFee)
      case Err(e) => Err(e)
      case Ok(w) => Pass(order, w, table, dates[|dates| - 1], rebalanceMonthPeriod, totalNav, tradingFee)
  }

  /** Every traded amount and every after-trade amount is a whole number of cents. */
  ghost predicate AmountsInCents(info: map<string, TickerInfo>)
  {
    forall t :: t in info ==> IsCents(info[t].targetNav) && IsCents(info[t].afterNav)
  }

  /**
   * Over any sequence of passes from an initial dictionary, weights stay in
   * {0, 0.5, 1}, and after at least one pass all traded amounts are whole cents.
   */
  lemma {:induction false} RunPassesInvariants(
    order: seq<string>, table: seq<Row>, dates: seq<Date>,
    rebalanceMonthPeriod: int, totalNav: real, tradingFee: real)
    requires TickerDict(order, FreshDict(order)) && Covers(FreshDict(order), table)
    requires RunPasses(order, FreshDict(order), table, dates, rebalanceMonthPeriod, totalNav, tradingFee).Ok?
    ensures WeightsInGrid(RunPasses(order, FreshDict(order), table, dates, rebalanceMonthPeriod, totalNav, tradingFee).value)
    ensures dates != [] ==>
      AmountsInCents(RunPasses(order, FreshDict(order), table, dates, rebalanceMonthPeriod, totalNav, tradingFee).value)
    decreases |dates|
  {
    var initial := FreshDict(order);
    if dates != [] {
      var init := dates[..|dates| - 1];
      RunPassesInvariants(order, table, init, rebalanceMonthPeriod, totalNav, tradingFee);
      var w := RunPasses(order, initial, table, init, rebalanceMonthPeriod, totalNav, tradingFee).value;
      var d := dates[|dates| - 1];
      WeightsStayInGrid(order, w, table, d, rebalanceMonthPeriod, TopN);
      var w2 := Weights(order, w, table, d, rebalanceMonthPeriod, TopN).value;
      assert RunPasses(order, initial, table, dates, rebalanceMonthPeriod, totalNav, tradingFee).value
          == Trades(w2, totalNav, tradingFee);
    }
  }

  /** Each date after the first is what the scheduler returns for the one before it. */
  ghost predicate Chained(table: seq<Row>, dates: seq<Date>, tradingDay: int, tradingMonthPeriod: int)
  {
    forall i {:trigger NextTradingDate(table, dates[i], tradingDay, tradingMonthPeriod)} :: 0 <= i < |dates| - 1 ==>
      NextTradingDate(table, dates[i], tradingDay, tradingMonthPeriod) == Ok(dates[i + 1])
  }

  /** The scheduler moved on from every date but the last two. */
  ghost predicate Advancing(table: seq<Row>, dates: seq<Date>, tradingDay: int, tradingMonthPeriod: int)
  {
    forall i {:trigger NextTradingDate(table, dates[i], tradingDay, tradingMonthPeriod)} :: 0 <= i < |dates| - 2 ==>
      NextTradingDate(table, dates[i], tradingDay, tradingMonthPeriod) != Ok(dates[i])
  }

  lemma ChainedExtend(table: seq<Row>, dates: seq<Date>, next: Date, tradingDay: int, tradingMonthPeriod: int)
    requires Chained(table, dates, tradingDay, tradingMonthPeriod) && dates != []
    requires NextTradingDate(table, dates[|dates| - 1], tradingDay, tradingMonthPeriod) == Ok(next)
    ensures Chained(table, dates + [next], tradingDay, tradingMonthPeriod)
  {
  }

  lemma AdvancingExtend(table: seq<Row>, dates: seq<Date>, next: Date, tradingDay: int, tradingMonthPeriod: int)
    requires Chained(table, dates, tradingDay, tradingMonthPeriod) && Advancing(table, dates, tradingDay, tradingMonthPeriod)
    requires 2 <= |dates| ==> dates[|dates| - 1] != dates[|dates| - 2]
    ensures Advancing(table, dates + [next], tradingDay, tradingMonthPeriod)
  {
  }

  /**
   * `outcomes[i]` is the dictionary before pass `i` (`Ok`), and `outcomes[|dates|]`
   * the outcome of the last pass, one pass per date of `dates`. The step clause
   * only fires where a pass on one of those dictionaries is already in view.
   */
  ghost predicate Trace(
    order: seq<string>, table: seq<Row>, outcomes: seq<Result<map<string, TickerInfo>, Error>>, dates: seq<Date>,
    rebalanceMonthPeriod: int, totalNav: real, tradingFee: real)
  {
    |outcomes| == |dates| + 1
    && (forall i :: 0 <= i < |dates| ==> outcomes[i].Ok?)
    && (forall i :: 0 <= i < |outcomes| && outcomes[i].Ok? ==>
          TickerDict(order, outcomes[i].value) && Covers(outcomes[i].value, table))
    && (forall i {:trigger Pass(order, outcomes[i].value, table, dates[i], rebalanceMonthPeriod, totalNav, tradingFee)} ::
          0 <= i < |dates| ==>
            Pass(order, outcomes[i].value, table, dates[i], rebalanceMonthPeriod, totalNav, tradingFee) == outcomes[i + 1])
  }

  /** A pass from a well-formed dictionary makes a one-pass trace. */
  lemma PassIsTrace(
    order: seq<string>, info: map<string, TickerInfo>, table: seq<Row>, date: Date,
    rebalanceMonthPeriod: int, totalNav: real, tradingFee: real)
    requires TickerDict(order, info) && Covers(info, table)
    ensures Trace(order, table, [Ok(info), Pass(order, info, table, date, rebalanceMonthPeriod, totalNav, tradingFee)], [date],
                  rebalanceMonthPeriod, totalNav, tradingFee)
  {
    var p := Pass(order, info, table, date, rebalanceMonthPeriod, totalNav, tradingFee);
    var o, ds := [Ok(info), p], [date];
    if p.Ok? {
      PassKeepsDict(order, info, table, date, rebalanceMonthPeriod, totalNav, tradingFee);
    }
    forall i | 0 <= i < |o| && o[i].Ok? ensures TickerDict(order, o[i].value) && Covers(o[i].value, table) {
      if i == 1 {
        assert o[i] == p;
      }
    }
    assert Pass(order, o[0].value, table, ds[0], rebalanceMonthPeriod, totalNav, tradingFee) == o[1];
  }

  /** A one-pass trace holds only the outcome of that pass. */
  lemma TraceIsPass(
    order: seq<string>, info: map<string, TickerInfo>, table: seq<Row>, date: Date,
    rebalanceMonthPeriod: int, totalNav: real, tradingFee: real, r: Result<map<string, TickerInfo>, Error>)
    requires Trace(order, table, [Ok(info), r], [date], rebalanceMonthPeriod, totalNav, tradingFee)
    ensures TickerDict(order, info) && Covers(info, table)
    ensures r == Pass(order, info, table, date, rebalanceMonthPeriod, totalNav, tradingFee)
  {
    var o, ds := [Ok(info), r], [date];
    assert Pass(order, o[0].value, table, ds[0], rebalanceMonthPeriod, totalNav, tradingFee) == o[1];
  }

  /** A successful pass leaves a dictionary over the same tickers. */
  lemma PassKeepsDict(
    order: seq<string>, info: map<string, TickerInfo>, table: seq<Row>, date: Date,
    rebalanceMonthPeriod: int, totalNav: real, tradingFee: real)
    requires TickerDict(order, info) && Covers(info, table)
    requires Pass(order, info, table, date, rebalanceMonthPeriod, totalNav, tradingFee).Ok?
    ensures TickerDict(order, Pass(order, info, table, date, rebalanceMonthPeriod, totalNav, tradingFee).value)
    ensures Covers(Pass(order, info, table, date, rebalanceMonthPeriod, totalNav, tradingFee).value, table)
  {
  }

  /** A trace followed by one more pass from its last dictionary is a longer trace. */
  lemma TraceExtend(
    order: seq<string>, table: seq<Row>, outcomes: seq<Result<map<string, TickerInfo>, Error>>, dates: seq<Date>,
    date: Date, r: Result<map<string, TickerInfo>, Error>, rebalanceMonthPeriod: int, totalNav: real, tradingFee: real)
    requires Trace(order, table, outcomes, dates, rebalanceMonthPeriod, totalNav, tradingFee)
    requires Trace(order, table, [outcomes[|dates|], r], [date], rebalanceMonthPeriod, totalNav, tradingFee)
    ensures Trace(order, table, outcomes + [r], dates + [date], rebalanceMonthPeriod, totalNav, tradingFee)
  {
    var o, ds := outcomes + [r], dates + [date];
    var last := [outcomes[|dates|], r];
    forall i | 0 <= i < |o| && o[i].Ok?
      ensures TickerDict(order, o[i].value) && Covers(o[i].value, table)
    {
      if i < |outcomes| {
        assert o[i] == outcomes[i];
      } else {
        assert o[i] == last[1];
      }
    }
    forall i | 0 <= i < |ds|
      ensures o[i].Ok? && Pass(order, o[i].value, table, ds[i], rebalanceMonthPeriod, totalNav, tradingFee) == o[i + 1]
    {
      if i < |dates| {
        assert o[i] == outcomes[i] && ds[i] == dates[i] && o[i + 1] == outcomes[i + 1];
        assert Pass(order, outcomes[i].value, table, dates[i], rebalanceMonthPeriod, totalNav, tradingFee) == outcomes[i + 1];
      } else {
        assert o[i] == last[0] && ds[i] == [date][0] && o[i + 1] == last[1];
        assert Pass(order, last[0].value, table, [date][0], rebalanceMonthPeriod, totalNav, tradingFee) == last[1];
      }
    }
  }

  /** Dropping the last pass of a trace leaves a trace. */
  lemma TracePrefix(
    order: seq<string>, table: seq<Row>, outcomes: seq<Result<map<string, TickerInfo>, Error>>, dates: seq<Date>,
    rebalanceMonthPeriod: int, totalNav: real, tradingFee: real)
    requires Trace(order, table, outcomes, dates, rebalanceMonthPeriod, totalNav, tradingFee) && dates != []
    ensures Trace(order, table, outcomes[..|dates|], dates[..|dates| - 1], rebalanceMonthPeriod, totalNav, tradingFee)
  {
    var n := |dates| - 1;
    var o := outcomes[..n + 1];
    assert forall i :: 0 <= i <= n ==> o[i] == outcomes[i];
    assert forall i :: 0 <= i < n ==> dates[..n][i] == dates[i];
  }

  /** A trace from `initial` is the fold of `RunPasses` over its dates. */
  lemma {:induction false} TraceIsRunPasses(
    order: seq<string>, table: seq<Row>, outcomes: seq<Result<map<string, TickerInfo>, Error>>, dates: seq<Date>,
    rebalanceMonthPeriod: int, totalNav: real, tradingFee: real)
    requires Trace(order, table, outcomes, dates, rebalanceMonthPeriod, totalNav, tradingFee) && outcomes[0].Ok?
    ensures RunPasses(order, outcomes[0].value, table, dates, rebalanceMonthPeriod, totalNav, tradingFee) == outcomes[|dates|]
    decreases |dates|
  {
    if dates != [] {
      var n := |dates| - 1;
      TracePrefix(order, table, outcomes, dates, rebalanceMonthPeriod, totalNav, tradingFee);
      TraceIsRunPasses(order, table, outcomes[..n + 1], dates[..n], rebalanceMonthPeriod, totalNav, tradingFee);
      assert outcomes[..n + 1][0] == outcomes[0] && outcomes[..n + 1][n] == outcomes[n];
      assert Pass(order, outcomes[n].value, table, dates[n], rebalanceMonthPeriod, totalNav, tradingFee) == outcomes[n + 1];
    }
  }

  /** The loop body before the NAV record: `calculate_rebalancing_weights`, then `execute_trades`. */
  method RebalanceOnce(
    order: seq<string>, info: map<string, TickerInfo>, table: seq<Row>, date: Date,
    rebalanceMonthPeriod: int, account: AccountStatus, tradingFee: real) returns (res: Result<map<string, TickerInfo>, Error>)
    requires TickerDict(order, info) && Covers(info, table)
    ensures Trace(order, table, [Ok(info), res], [date], rebalanceMonthPeriod, account.currentNav, tradingFee)
  {
    var weighted := CalculateRebalancingWeights(order, info, table, date, rebalanceMonthPeriod, TopN);
    if weighted.Err? {
      res := Err(weighted.error);
    } else {
      var traded, _ := ExecuteTrades(order, weighted.value, account, tradingFee);
      res := Ok(traded);
    }
    PassIsTrace(order, info, table, date, rebalanceMonthPeriod, account.currentNav, tradingFee);
  }

  /** `RebalanceOnce` on the last dictionary of a trace, which extends the trace by that pass. */
  method TracedPass(
    order: seq<string>, info: map<string, TickerInfo>, table: seq<Row>, date: Date,
    rebalanceMonthPeriod: int, account: AccountStatus, tradingFee: real,
    ghost outcomes: seq<Result<map<string, TickerInfo>, Error>>, ghost passDates: seq<Date>)
    returns (res: Result<map<string, TickerInfo>, Error>)
    requires Trace(order, table, outcomes, passDates, rebalanceMonthPeriod, account.currentNav, tradingFee)
    requires outcomes[|passDates|] == Ok(info)
    ensures Trace(order, table, outcomes + [res], passDates + [date], rebalanceMonthPeriod, account.currentNav, tradingFee)
  {
    res := RebalanceOnce(order, info, table, date, rebalanceMonthPeriod, account, tradingFee);
    TraceExtend(order, table, outcomes, passDates, date, res, rebalanceMonthPeriod, account.currentNav, tradingFee);
  }

  /**
   * What a run of the pass loop from `start`, with the account's current NAV `nav`
   * and the initial dictionary `initial`, produced. `dates` are the dates of the
   * passes made, followed on success by the date the scheduler returned last;
   * `outcomes` are the dictionaries before each pass, followed by the outcome of the
   * last one; `navs` is the NAV history or the error raised, and `final` the
   * dictionary the loop ended with.
   *  - The dates chain through the scheduler, which moved on from all but the last two.
   *  - On success there is one NAV per date, each equal to `nav`; the loop stopped
   *    after three passes or when the scheduler returned the date it was given; and
   *    `final` is the outcome of the last pass.
   *  - On failure there were at most three passes, the scheduler had moved to the
   *    date of the last one, and either that pass raised the error (`final` is the
   *    dictionary before it), or it succeeded (`final` is its outcome) and the
   *    scheduler raised the error.
   */
  ghost predicate LoopOutcome(
    order: seq<string>, table: seq<Row>, start: Date, initial: map<string, TickerInfo>, nav: real,
    tradingDay: int, tradingFee: real, rebalanceMonthPeriod: int, tradingMonthPeriod: int,
    navs: Result<seq<real>, Error>, final: map<string, TickerInfo>,
    outcomes: seq<Result<map<string, TickerInfo>, Error>>, dates: seq<Date>)
  {
    1 <= |dates| <= MaxPasses + 1 && dates[0] == start && outcomes != [] && outcomes[0] == Ok(initial)
    && Chained(table, dates, tradingDay, tradingMonthPeriod)
    && Advancing(table, dates, tradingDay, tradingMonthPeriod)
    && (navs.Ok? ==>
          |outcomes| == |dates| && outcomes[|dates| - 1] == Ok(final)
          && Trace(order, table, outcomes, dates[..|dates| - 1], rebalanceMonthPeriod, nav, tradingFee)
          && 2 <= |navs.value| == |dates| && (forall i :: 0 <= i < |navs.value| ==> navs.value[i] == nav)
          && (|dates| == MaxPasses + 1 || dates[|dates| - 1] == dates[|dates| - 2]))
    && (navs.Err? ==>
          |dates| <= MaxPasses && (2 <= |dates| ==> dates[|dates| - 1] != dates[|dates| - 2])
          && Trace(order, table, outcomes, dates, rebalanceMonthPeriod, nav, tradingFee)
          && ((outcomes[|dates|] == Err(navs.error) && outcomes[|dates| - 1] == Ok(final))
              || (outcomes[|dates|] == Ok(final)
                  && NextTradingDate(table, dates[|dates| - 1], tradingDay, tradingMonthPeriod) == Err(navs.error))))
  }

  /** A loop that stopped on its own meets `LoopOutcome` with its NAV history. */
  lemma StoppedOutcome(
    order: seq<string>, table: seq<Row>, start: Date, initial: map<string, TickerInfo>, nav: real,
    tradingDay: int, tradingFee: real, rebalanceMonthPeriod: int, tradingMonthPeriod: int,
    navs: seq<real>, final: map<string, TickerInfo>,
    outcomes: seq<Result<map<string, TickerInfo>, Error>>, dates: seq<Date>)
    requires 2 <= |dates| <= MaxPasses + 1 && dates[0] == start
    requires Trace(order, table, outcomes, dates[..|dates| - 1], rebalanceMonthPeriod, nav, tradingFee)
    requires outcomes[0] == Ok(initial)
    requires Chained(table, dates, tradingDay, tradingMonthPeriod)
    requires Advancing(table, dates, tradingDay, tradingMonthPeriod)
    requires outcomes[|dates| - 1] == Ok(final)
    requires |navs| == |dates| && forall i :: 0 <= i < |navs| ==> navs[i] == nav
    requires |dates| == MaxPasses + 1 || dates[|dates| - 1] == dates[|dates| - 2]
    ensures LoopOutcome(order, table, start, initial, nav, tradingDay, tradingFee, rebalanceMonthPeriod, tradingMonthPeriod,
                        Ok(navs), final, outcomes, dates)
  {
  }

  /** A loop that ended with an error meets `LoopOutcome` with that error. */
  lemma FailedOutcome(
    order: seq<string>, table: seq<Row>, start: Date, initial: map<string, TickerInfo>, nav: real,
    tradingDay: int, tradingFee: real, rebalanceMonthPeriod: int, tradingMonthPeriod: int,
    e: Error, final: map<string, TickerInfo>,
    outcomes: seq<Result<map<string, TickerInfo>, Error>>, dates: seq<Date>)
    requires 1 <= |dates| <= MaxPasses && dates[0] == start
    requires 2 <= |dates| ==> dates[|dates| - 1] != dates[|dates| - 2]
    requires Trace(order, table, outcomes, dates, rebalanceMonthPeriod, nav, tradingFee)
    requires outcomes[0] == Ok(initial)
    requires Chained(table, dates, tradingDay, tradingMonthPeriod)
    requires Advancing(table, dates, tradingDay, tradingMonthPeriod)
    requires (outcomes[|dates|] == Err(e) && outcomes[|dates| - 1] == Ok(final))
      || (outcomes[|dates|] == Ok(final) && NextTradingDate(table, dates[|dates| - 1], tradingDay, tradingMonthPeriod) == Err(e))
    ensures LoopOutcome(order, table, start, initial, nav, tradingDay, tradingFee, rebalanceMonthPeriod, tradingMonthPeriod,
                        Err(e), final, outcomes, dates)
  {
  }

  /**
   * The pass loop of `run_rebalancing`: at most three passes of weights, trades,
   * NAV record and next date from `start`, stopping early when the scheduler does
   * not move.
   */
  method RunPassLoop(
    order: seq<string>, initial: map<string, TickerInfo>, table: seq<Row>, start: Date, nav: real,
    tradingDay: int, tradingFee: real, rebalanceMonthPeriod: int, tradingMonthPeriod: int)
    returns (navs: Result<seq<real>, Error>, final: map<string, TickerInfo>,
             ghost outcomes: seq<Result<map<string, TickerInfo>, Error>>, ghost dates: seq<Date>)
    requires TickerDict(order, initial) && Covers(initial, table)
    ensures navs.Ok? ==> 2 <= |navs.value| <= MaxPasses + 1 && forall i :: 0 <= i < |navs.value| ==> navs.value[i] == nav
    ensures LoopOutcome(order, table, start, initial, nav, tradingDay, tradingFee, rebalanceMonthPeriod, tradingMonthPeriod,
                        navs, final, outcomes, dates)
  {
    var account := AccountStatus(nav, nav);
    var info := initial;
    var date := start;
    var navHistory := [nav];
    outcomes := [Ok(initial)];
    dates := [start];
    var cnt := 0;
    while true
      invariant 0 <= cnt < MaxPasses
      invariant |dates| == |navHistory| == |outcomes| == cnt + 1 && dates[0] == start && dates[cnt] == date
      invariant outcomes[0] == Ok(initial) && outcomes[cnt] == Ok(info)
      invariant forall i :: 0 <= i < |navHistory| ==> navHistory[i] == nav
      invariant Chained(table, dates, tradingDay, tradingMonthPeriod)
      invariant Advancing(table, dates, tradingDay, tradingMonthPeriod)
      invariant 0 < cnt ==> dates[cnt] != dates[cnt - 1]
      invariant Trace(order, table, outcomes, dates[..cnt], rebalanceMonthPeriod, nav, tradingFee)
      decreases MaxPasses - cnt
    {
      var passed := TracedPass(order, info, table, date, rebalanceMonthPeriod, account, tradingFee, outcomes, dates[..cnt]);
      assert dates[..cnt] + [date] == dates;
      outcomes := outcomes + [passed];
      if passed.Err? {
        assert outcomes[|dates|] == passed && outcomes[|dates| - 1] == Ok(info);
        FailedOutcome(order, table, start, initial, nav, tradingDay, tradingFee, rebalanceMonthPeriod, tradingMonthPeriod,
                      passed.error, info, outcomes, dates);
        return Err(passed.error), info, outcomes, dates;
      }
      info := passed.value;
      ghost var prevNavs := navHistory;
      navHistory := navHistory + [account.currentNav];
      forall i | 0 <= i < |navHistory| ensures navHistory[i] == nav {
        if i < |prevNavs| {
          assert navHistory[i] == prevNavs[i];
        }
      }
      var before := date;
      var next := NextTradingDate(table, date, tradingDay, tradingMonthPeriod);
      if next.Err? {
        assert outcomes[|dates|] == Ok(info) && dates[|dates| - 1] == date;
        FailedOutcome(order, table, start, initial, nav, tradingDay, tradingFee, rebalanceMonthPeriod, tradingMonthPeriod,
                      next.error, info, outcomes, dates);
        return Err(next.error), info, outcomes, dates;
      }
      ChainedExtend(table, dates, next.value, tradingDay, tradingMonthPeriod);
      AdvancingExtend(table, dates, next.value, tradingDay, tradingMonthPeriod);
      ghost var passDates := dates;
      dates := dates + [next.value];
      assert dates[..cnt + 1] == passDates;
      date := next.value;
      cnt := cnt + 1;
      if cnt > MaxPasses - 1 {
        break;
      }
      if date == before {
        break;
      }
    }
    StoppedOutcome(order, table, start, initial, nav, tradingDay, tradingFee, rebalanceMonthPeriod, tradingMonthPeriod,
                   navHistory, info, outcomes, dates);
    return Ok(navHistory), info, outcomes, dates;
  }

  class RebalancingService {
    var accountStatus: AccountStatus
    var tickerOrder: seq<string>
    var tickerInfo: map<string, TickerInfo>

    /** A new service: no tickers, and an account whose NAVs are set by the run. */
    constructor ()
      ensures accountStatus == AccountStatus(0.0, 0.0)
      ensures tickerOrder == [] && tickerInfo == map[]
    {
      accountStatus := AccountStatus(0.0, 0.0);
      tickerOrder := [];
      tickerInfo := map[];
    }

    /**
     * Runs the backtest on `table`, the price rows fetched for the run, and returns
     * the NAV history or the error raised. A start date the month does not have is
     * rejected before anything changes. Otherwise both account NAVs become
     * `initialNav`, the dictionary gets every ticker of the table with all fields 0,
     * and the pass loop runs from the start date; the service keeps the dictionary
     * the loop ended with. `dates` and `outcomes` are as in `LoopOutcome`
     * (`TraceIsRunPasses` turns the outcomes into `RunPasses`).
     */
    method RunRebalancing(
      table: seq<Row>, startYear: int, startMonth: int, initialNav: real, tradingDay: int,
      tradingFee: real, rebalanceMonthPeriod: int, tradingMonthPeriod: int)
      returns (res: Result<seq<real>, Error>, ghost dates: seq<Date>, ghost outcomes: seq<Result<map<string, TickerInfo>, Error>>)
      modifies this
      ensures MakeDate(startYear, startMonth, tradingDay).None? ==> res == Err(InvalidDate) && unchanged(this)
      ensures MakeDate(startYear, startMonth, tradingDay).Some? ==>
        accountStatus == AccountStatus(initialNav, initialNav) && tickerOrder == UniqueTickers(table)
        && LoopOutcome(tickerOrder, table, MakeDate(startYear, startMonth, tradingDay).value, FreshDict(tickerOrder),
                       initialNav, tradingDay, tradingFee, rebalanceMonthPeriod, tradingMonthPeriod,
                       res, tickerInfo, outcomes, dates)
    {
      var startOpt := MakeDate(startYear, startMonth, tradingDay);
      if startOpt.None? {
        return Err(InvalidDate), [], [];
      }
      var order := UniqueTickers(table);
      var initial := FreshDict(order);
      var run, final;
      run, final, outcomes, dates := RunPassLoop(order, initial, table, startOpt.value, initialNav,
                                                 tradingDay, tradingFee, rebalanceMonthPeriod, tradingMonthPeriod);
      accountStatus := AccountStatus(initialNav, initialNav);
      tickerOrder := order;
      tickerInfo := final;
      return run, dates, outcomes;
    }
  }
}

=== FILE: wrappers.dfy ===
/** Failure-carrying result types shared by the model. */
module Wrappers {

  datatype Option<+T> = None | Some(value: T)

  datatype Result<+T, +E> = Ok(value: T) | Err(error: E)
}
